=== FILE: README.md ===
# Realized wrapped elements

A Dafny model of `RealizedWrappedElements`, the bookkeeping class behind
PleasantUI's `VirtualizingWrapPanel`. The panel only creates controls for the
items near the viewport. This class records which run of source-collection
indices currently has a control ("realized elements"). For each slot it keeps
the element and its UV position, where U is the axis along which elements flow
into a line and V the axis along which lines stack. It also keeps the size of
the element added last, and a flag that says whether the recorded positions can
still be trusted to find where the next layout pass should start.

The model is functional. The tracker's state is an immutable `Window<E>`. `E`
stands for the control type and is only compared for equality. Every operation
is a pure function from one state to the next. The delegates the class calls
while it walks its slots (`updateElementIndex`, `recycleElement`) are returned
as traces: sequences of the calls in the order they are made. Exceptions are
`Err` values of a `Result`.

Modules, in dependency order:

- `Results` (`results.dfy`): `Option`, `Result`, and the two exception kinds.
- `UvGeometry` (`geometry.dfy`): UV sizes with a NaN value, Avalonia's
  near-zero test, `Math.Max`/`Math.Min`, and C#'s truncating `(int)` cast and `%`
  on doubles.
- `Traces` (`traces.dfy`): the delegate calls of a walk over slots.
- `RealizedWindow` (`window.dfy`): the state and its invariant, the observers
  `Count`/`FirstIndex`/`LastIndex`, the lookups, and `Add`.
- `CollectionChanges` (`collection_changes.dfy`): `ItemsInserted`,
  `ItemsRemoved` and `ItemsReset`.
- `Recycling` (`recycling.dfy`): `RecycleElementsBefore`/`After`,
  `RecycleAllElements` and `ResetForReuse`.
- `Estimation` (`estimation.dfy`): the anchor search and the position estimate
  for elements that are not realized.

`Valid` is the invariant every reachable state satisfies. The element and
position lists have the same length, and a non-empty window starts at a
non-negative index. `Empty()` establishes it, every operation that changes the
state requires it, and every such operation is proved to preserve it.

Where the code and the class's own documentation disagree, the model follows the
code. Its oddities are modelled as written and stated as lemmas:

- `GetElementUv` checks the slot number `index - FirstIndex` against the list
  length, but then reads the list at the source index `index`. On a window that
  does not start at 0 it returns the wrong slot's position or throws
  (`RealizedWindow.GetElementUvThrowsOnShiftedWindow`).
- When items are removed wholly before the window, each element is reported with
  old index `newIndex - count`. The element actually sat at `newIndex + count`
  (`CollectionChanges.RemoveBeforeReindexes`).
- The restart test of an overlapping removal, `startIndex <= 0 && end < last`,
  compares a slot number with a source index. Whether the start is marked
  unstable therefore depends on where the window sits
  (`CollectionChanges.RemoveOverlapRestartTestMixesIndices`).
- `ItemsInserted`'s delegate is described as receiving source indices, but its
  counter starts at the window-relative insertion point. For an insert before
  the window it reports each element's slot plus `index - FirstIndex` as the
  old index (`CollectionChanges.InsertBeforeReindexes`). For an insert inside
  the window it reports the element's slot as the old index and the slot plus
  `count` as the new one (`CollectionChanges.InsertInsideReindexes`): on a
  window at 5..9 holding a to e, inserting one item at 7 reports (c, 2, 3),
  (d, 3, 4) and (e, 4, 5). In both cases new and old differ by `count`.
- A freshly constructed tracker records a size of (0, 0), not NaN, and so
  do `ItemsReset`, `RecycleAllElements` and `ResetForReuse`. The comment on
  the anchor estimate says the caller's estimate is used when no elements are
  realized, but it is used only when the size is NaN, which the tracker itself
  sets only on an insert inside the window. On a fresh, reset or fully
  recycled tracker the recorded (0, 0) size has a zero component and is
  replaced by 1x1, which is also written back. A window emptied by a removal
  keeps the last added size (or the NaN size after an insert inside it), so
  the anchor estimates with that size (or, after such an insert, with the
  caller's estimate). For example, on a fresh
  tracker with 10000 items, a viewport from (100, 200) to (500, 1000) and a
  caller's estimate of 50x20, the anchor is the last item, 9999, rather than
  item 102 (`Estimation.ZeroSizeOverridesEstimate`,
  `Estimation.FreshTrackerDiscardsEstimate`).
- The estimated position truncates only the U offset before dividing it by
  the line length, so its V is a fraction of a line rather than a whole line
  number. With 30x10 elements on a 100-wide viewport, three to a line, element
  1 is placed at (30, 10/3), a third of a line down, and element 3 at (0, 10)
  (`Estimation.GetPositionVIsLineFraction`).
- `ItemsReset` and `RecycleAllElements` keep the unstable-start flag. On an
  empty window they change nothing at all. Only `ResetForReuse` restores a
  freshly constructed state.

## Model

Every source cell refers to
`src/PleasantUI/Controls/VirtualizingWrapPanel/Utils/RealizedWrappedElements.cs`.

| member | source | states |
|---|---|---|
| `RealizedWindow.Empty` | src/PleasantUI/Controls/VirtualizingWrapPanel/Utils/RealizedWrappedElements.cs:18-22 | A new tracker satisfies the invariant and has no slots. Both indices are -1, the start is trusted, and a (zero) size estimate is available. |
| `RealizedWindow.Count` | src/PleasantUI/Controls/VirtualizingWrapPanel/Utils/RealizedWrappedElements.cs:27 | In a reachable state the count is the length of either list, elements or positions. |
| `RealizedWindow.FirstIndex` | src/PleasantUI/Controls/VirtualizingWrapPanel/Utils/RealizedWrappedElements.cs:32 | Without realized elements the first index is -1. |
| `RealizedWindow.LastIndex` | src/PleasantUI/Controls/VirtualizingWrapPanel/Utils/RealizedWrappedElements.cs:37 | Without realized elements the last index is -1. Otherwise first to last covers exactly `Count` indices. |
| `RealizedWindow.IndexRange` | src/PleasantUI/Controls/VirtualizingWrapPanel/Utils/RealizedWrappedElements.cs:27-37 | In a reachable state, each index is -1 exactly when the window is empty. A non-empty window spans non-negative indices. |
| `RealizedWindow.EstimateElementSize` | src/PleasantUI/Controls/VirtualizingWrapPanel/Utils/RealizedWrappedElements.cs:250-253 | There is no estimate exactly when the tracked size is NaN. Otherwise the estimate is that size. |
| `RealizedWindow.GetElement` | src/PleasantUI/Controls/VirtualizingWrapPanel/Utils/RealizedWrappedElements.cs:109-115 | An element is returned only by a non-empty window, for an index between its first and last index; an empty window returns nothing, even for index -1. For such an index it is that slot's content. |
| `RealizedWindow.SlotOf` | src/PleasantUI/Controls/VirtualizingWrapPanel/Utils/RealizedWrappedElements.cs:262 | Returns -1 exactly when no slot holds the element. Otherwise returns a slot holding it, with no earlier slot holding it (first occurrence). |
| `RealizedWindow.GetIndex` | src/PleasantUI/Controls/VirtualizingWrapPanel/Utils/RealizedWrappedElements.cs:260-263 | Returns -1 exactly when the element is not realized. Otherwise returns the lowest source index whose lookup gives the element back. |
| `RealizedWindow.GetElementUv` | src/PleasantUI/Controls/VirtualizingWrapPanel/Utils/RealizedWrappedElements.cs:207-218 | Outside the window there is no position. It throws exactly for an index inside the window that is at least `Count`. A returned position is the one stored at list position `index`. For a window starting at 0 this is the index's own position. |
| `RealizedWindow.GetElementUvThrowsOnShiftedWindow` | src/PleasantUI/Controls/VirtualizingWrapPanel/Utils/RealizedWrappedElements.cs:212-217 | On a one-element window at index 5, the element is realized at 5, yet looking up its position throws. |
| `RealizedWindow.Add` | src/PleasantUI/Controls/VirtualizingWrapPanel/Utils/RealizedWrappedElements.cs:67-102 | Throws out-of-range for a negative index. Throws not-supported for an index not adjacent to a non-empty window. Otherwise the window grows by one at the edge `index` is adjacent to, the element is realized at `index`, the size becomes the one added, and the start position follows a new first element. The position is prepended with an element added before the window and appended otherwise. |
| `RealizedWindow.AddKeepsOtherIndices` | src/PleasantUI/Controls/VirtualizingWrapPanel/Utils/RealizedWrappedElements.cs:84-97 | Adding at an edge changes no other index's element. |
| `UvGeometry.Trunc` | src/PleasantUI/Controls/VirtualizingWrapPanel/Utils/RealizedWrappedElements.cs:185-186 | The `(int)` cast rounds toward zero: the result is within one of the value, on the zero side. |
| `UvGeometry.FModBounds` | src/PleasantUI/Controls/VirtualizingWrapPanel/Utils/RealizedWrappedElements.cs:196 | C#'s `%` of a non-negative value by a positive one lies in `[0, divisor)`. |
| `CollectionChanges.Splice` | src/PleasantUI/Controls/VirtualizingWrapPanel/Utils/RealizedWrappedElements.cs:306-309 | Inserting `count` fillers keeps the prefix, shifts the suffix up by `count`, and fills the gap. |
| `CollectionChanges.InsertBefore` | src/PleasantUI/Controls/VirtualizingWrapPanel/Utils/RealizedWrappedElements.cs:297-301 | An insert before the window shifts both indices up by `count`. Slots, positions, size and flags stay unchanged. |
| `CollectionChanges.InsertInside` | src/PleasantUI/Controls/VirtualizingWrapPanel/Utils/RealizedWrappedElements.cs:302-310 | An insert inside the window keeps the first index and moves the last up by `count`. It opens `count` empty slots with NaN positions at the insertion point, keeps everything around them, and invalidates the size estimate. |
| `CollectionChanges.ItemsInserted` | src/PleasantUI/Controls/VirtualizingWrapPanel/Utils/RealizedWrappedElements.cs:271-312 | Throws exactly for a negative index. Changes nothing on an empty window or past its end. Otherwise it is the before-window or inside-window change, recycles nothing, and keeps the invariant. |
| `CollectionChanges.ItemsInsertedMovesIndices` | src/PleasantUI/Controls/VirtualizingWrapPanel/Utils/RealizedWrappedElements.cs:271-312 | After an insert, an index below the insertion point holds its old element. The inserted range holds nothing. A higher index holds the element from `count` below. |
| `CollectionChanges.ItemsInsertedKeepsElements` | src/PleasantUI/Controls/VirtualizingWrapPanel/Utils/RealizedWrappedElements.cs:271-312 | No realized element is lost: each old index reappears inside the new window, shifted by `count` if at or past the insertion point. |
| `CollectionChanges.InsertInsideReindexes` | src/PleasantUI/Controls/VirtualizingWrapPanel/Utils/RealizedWrappedElements.cs:286-295 | For an insert inside, a call is made exactly for each realized element at or after the insertion slot. It carries that element's old slot and that slot plus `count`, once per element. |
| `CollectionChanges.InsertInsideReindexesToSlot` | src/PleasantUI/Controls/VirtualizingWrapPanel/Utils/RealizedWrappedElements.cs:288-309 | The new slot reported for an element is the slot it occupies after the insert. |
| `CollectionChanges.InsertBeforeReindexes` | src/PleasantUI/Controls/VirtualizingWrapPanel/Utils/RealizedWrappedElements.cs:286-300 | For an insert before the window, a call is made exactly for each realized element, once each. Its indices are the element's slot offset by `index - FirstIndex`, old and new differing by `count`. |
| `CollectionChanges.RemoveBefore` | src/PleasantUI/Controls/VirtualizingWrapPanel/Utils/RealizedWrappedElements.cs:338-351 | A removal before the window shifts both indices down by `count` and marks the start unstable. Nothing is recycled; slots, positions, size and start position stay unchanged. |
| `CollectionChanges.RemoveOverlapWindow` | src/PleasantUI/Controls/VirtualizingWrapPanel/Utils/RealizedWrappedElements.cs:353-376 | An overlapping removal cuts exactly the overlapped slots out of both lists, keeping the invariant and the size. A removal starting inside keeps the first index and the flag. One starting at or before the first index restarts the window at `index` if any slot survives. An unstable start stays unstable. |
| `CollectionChanges.RemoveOverlap` | src/PleasantUI/Controls/VirtualizingWrapPanel/Utils/RealizedWrappedElements.cs:353-387 | An overlapping removal recycles each element exactly as many times as a cut slot holds it. An element is recycled exactly when it was realized at a removed source index. A call to `updateElementIndex` is made exactly for each element realized after the cut in the new window, with its new source index and that index plus `count` as old index. Every old index reported is where that element was realized before the removal. |
| `CollectionChanges.ItemsRemoved` | src/PleasantUI/Controls/VirtualizingWrapPanel/Utils/RealizedWrappedElements.cs:321-388 | Throws exactly for a negative index. Changes nothing on an empty window or past its end. Otherwise it is the before-window or overlapping removal, keeping the invariant and the size. |
| `CollectionChanges.ItemsRemovedMovesIndices` | src/PleasantUI/Controls/VirtualizingWrapPanel/Utils/RealizedWrappedElements.cs:321-388 | After a removal, each index of the window below the removal point holds its old element. Each other index holds the element from `count` above. |
| `CollectionChanges.RemoveOverlapMovesIndices` | src/PleasantUI/Controls/VirtualizingWrapPanel/Utils/RealizedWrappedElements.cs:366-376 | The same for the overlapping case, across both the restarting and the non-restarting window. |
| `CollectionChanges.ItemsRemovedKeepsElements` | src/PleasantUI/Controls/VirtualizingWrapPanel/Utils/RealizedWrappedElements.cs:321-388 | No element outside the removed range is lost: each reappears inside the new window, shifted down by `count` if it lay after the range. |
| `CollectionChanges.RemoveBeforeReindexes` | src/PleasantUI/Controls/VirtualizingWrapPanel/Utils/RealizedWrappedElements.cs:345-351 | For a removal before the window, a call is made exactly for each realized element, once each, with its correct new index. The old index is reported as `new - count`, while the element actually sat at `new + count`. |
| `CollectionChanges.RemoveOverlapRestartTestMixesIndices` | src/PleasantUI/Controls/VirtualizingWrapPanel/Utils/RealizedWrappedElements.cs:372-376 | The same head removal leaves the start trusted on a window at 0 but marks it unstable on a window at 1. |
| `CollectionChanges.Cleared` | src/PleasantUI/Controls/VirtualizingWrapPanel/Utils/RealizedWrappedElements.cs:407-411 | A cleared window is valid and empty with zero size and start, and keeps the unstable flag. |
| `CollectionChanges.ItemsReset` | src/PleasantUI/Controls/VirtualizingWrapPanel/Utils/RealizedWrappedElements.cs:395-412 | A reset leaves the window empty, keeps the unstable flag and reports no reindexing. An empty window is left untouched. Otherwise size and start return to zero. |
| `CollectionChanges.ItemsResetRecyclesAll` | src/PleasantUI/Controls/VirtualizingWrapPanel/Utils/RealizedWrappedElements.cs:400-405 | A reset recycles each element exactly as many times as a slot holds it, and only those elements. |
| `Recycling.RecycleAllElements` | src/PleasantUI/Controls/VirtualizingWrapPanel/Utils/RealizedWrappedElements.cs:483-500 | Leaves the window empty and keeps the unstable flag. An empty window is left untouched. Otherwise size and start return to zero. |
| `Recycling.RecycleAllElementsReports` | src/PleasantUI/Controls/VirtualizingWrapPanel/Utils/RealizedWrappedElements.cs:488-493 | Reports exactly the realized (element, index) pairs, in strictly increasing index order. |
| `Recycling.RecycleElementsBefore` | src/PleasantUI/Controls/VirtualizingWrapPanel/Utils/RealizedWrappedElements.cs:420-444 | A no-op at or before the first index, and releases everything past the last. Otherwise `index` becomes the first index, the last index and the kept positions are unchanged, and size and flags are kept. |
| `Recycling.RecycleElementsBeforeKeeps` | src/PleasantUI/Controls/VirtualizingWrapPanel/Utils/RealizedWrappedElements.cs:431-442 | Afterwards an index from `index` on holds its old element, and every lower index holds nothing. |
| `Recycling.RecycleElementsBeforeReports` | src/PleasantUI/Controls/VirtualizingWrapPanel/Utils/RealizedWrappedElements.cs:420-438 | Reports exactly the realized (element, index) pairs below `index`, in increasing index order. |
| `Recycling.RecycleElementsAfter` | src/PleasantUI/Controls/VirtualizingWrapPanel/Utils/RealizedWrappedElements.cs:452-476 | A no-op at or past the last index, and releases everything before the first. Otherwise `index` becomes the last index, the first index and the kept positions are unchanged, and size and flags are kept. |
| `Recycling.RecycleElementsAfterKeeps` | src/PleasantUI/Controls/VirtualizingWrapPanel/Utils/RealizedWrappedElements.cs:463-474 | Afterwards an index up to `index` holds its old element, and every higher index holds nothing. |
| `Recycling.RecycleElementsAfterReports` | src/PleasantUI/Controls/VirtualizingWrapPanel/Utils/RealizedWrappedElements.cs:452-471 | Reports exactly the realized (element, index) pairs above `index`, in increasing index order. |
| `Recycling.ResetForReuse` | src/PleasantUI/Controls/VirtualizingWrapPanel/Utils/RealizedWrappedElements.cs:506-514 | From any state, the result is the freshly constructed tracker. |
| `Traces.PresentMultiplicity` | src/PleasantUI/Controls/VirtualizingWrapPanel/Utils/RealizedWrappedElements.cs:400-405 | A walk that recycles every realized slot hands each element over exactly as many times as slots hold it. |
| `Traces.PresentMembership` | src/PleasantUI/Controls/VirtualizingWrapPanel/Utils/RealizedWrappedElements.cs:359-364 | An element is handed over exactly when some walked slot holds it. |
| `Traces.NumberedMembership` | src/PleasantUI/Controls/VirtualizingWrapPanel/Utils/RealizedWrappedElements.cs:488-493 | A numbered recycle walk reports an (element, index) pair exactly when the slot for that index holds the element. |
| `Traces.NumberedIncreasing` | src/PleasantUI/Controls/VirtualizingWrapPanel/Utils/RealizedWrappedElements.cs:466-471 | A numbered recycle walk reports strictly increasing indices. |
| `Traces.ReindexedMembership` | src/PleasantUI/Controls/VirtualizingWrapPanel/Utils/RealizedWrappedElements.cs:290-295 | A reindex walk makes a call exactly for each realized slot. It carries the counter value of that slot and that value shifted by the fixed offset. |
| `Traces.ReindexedLength` | src/PleasantUI/Controls/VirtualizingWrapPanel/Utils/RealizedWrappedElements.cs:381-386 | A reindex walk makes one call per realized slot. |
| `Estimation.Scan` | src/PleasantUI/Controls/VirtualizingWrapPanel/Utils/RealizedWrappedElements.cs:149-162 | The scan finds the first slot whose element ends strictly inside the viewport, with no NaN position before it. If it finds nothing, no slot is such a first hit. |
| `Estimation.EstimatedSize` | src/PleasantUI/Controls/VirtualizingWrapPanel/Utils/RealizedWrappedElements.cs:168-178 | The estimate used has no zero component. It is the tracked size when that is known and non-zero, and the caller's estimate when no size is tracked (NaN) and that is non-zero. Whichever of the two is used, if it has a zero component it is replaced by exactly 1x1. |
| `Estimation.LineLengthBounds` | src/PleasantUI/Controls/VirtualizingWrapPanel/Utils/RealizedWrappedElements.cs:192 | A line of whole elements is at least one element and at most the viewport long. |
| `Estimation.GetPositionWithinLine` | src/PleasantUI/Controls/VirtualizingWrapPanel/Utils/RealizedWrappedElements.cs:190-199 | With a positive element size no wider than the viewport and a non-negative index, the estimated position is not NaN, lies in `[0, viewport U)` along U, and has a non-negative V. |
| `Estimation.GetPositionVIsLineFraction` | src/PleasantUI/Controls/VirtualizingWrapPanel/Utils/RealizedWrappedElements.cs:190-199 | With 30x10 elements on a 100-wide viewport, element 1 is placed at (30, 10/3), a third of a line down, and element 3 at (0, 10). |
| `Estimation.GetOrEstimateAnchorElementForViewport` | src/PleasantUI/Controls/VirtualizingWrapPanel/Utils/RealizedWrappedElements.cs:135-188 | Returns index -1 without items. Returns index 0 when both coordinates of the viewport start are zero up to Avalonia's epsilon. With a trusted start, it returns the first recorded element ending inside the viewport. Otherwise it estimates: the size used and written back is `EstimatedSize` of the tracked size and the caller's estimate (the tracked size when it is known and non-zero). The index is the viewport start's row times the elements per line plus its column, capped at the last item, and the position is that index's grid position. |
| `Estimation.EstimatedAnchorOnGrid` | src/PleasantUI/Controls/VirtualizingWrapPanel/Utils/RealizedWrappedElements.cs:184-187 | When the estimate used is positive in both components, the viewport start's column exists on a line and the index is not capped, dividing the estimated index by the elements per line gives back the start's row, and the remainder gives back its column. |
| `Estimation.ZeroSizeOverridesEstimate` | src/PleasantUI/Controls/VirtualizingWrapPanel/Utils/RealizedWrappedElements.cs:168-181 | When the tracked size has a zero component, as on a fresh, reset or recycled tracker, the estimate written back is 1x1 whatever the caller passed. |
| `Estimation.FreshTrackerDiscardsEstimate` | src/PleasantUI/Controls/VirtualizingWrapPanel/Utils/RealizedWrappedElements.cs:164-187 | On a fresh tracker with 10000 items, a viewport from (100, 200) to (500, 1000) and an estimate of 50x20, whose grid index is 102, the anchor is item 9999 and the estimate written back is 1x1. |
| `Estimation.EstimatedAnchorInRange` | src/PleasantUI/Controls/VirtualizingWrapPanel/Utils/RealizedWrappedElements.cs:184-187 | With a viewport in the positive quadrant and an estimate used that is positive in both components, an estimated anchor is a real item index. If an element fits on a line, it lies on the grid within the viewport's U extent. |
| `Estimation.GetOrEstimateElementUv` | src/PleasantUI/Controls/VirtualizingWrapPanel/Utils/RealizedWrappedElements.cs:220-240 | Throws exactly when the lookup throws. A recorded position is returned with the estimate untouched. When the lookup finds no position, the grid position under the tracked size (the caller's estimate if the size is NaN) is returned and that size is written back. |

## Left out

- Orientation: `UvSize` carries an orientation only to convert between
  width/height and U/V. The model works in U/V throughout and drops the
  `Orientation` parameters.
- The `Elements`, `PositionsUv`, `StartUv` and `SizeUv` accessors only expose
  fields of the state. They are the fields of `Window`.
- A list that was never allocated (`null`) is treated as an empty one. Every
  observer in the class treats the two alike.
- `UvSize` is not part of this model. A size is a pair of reals or a whole NaN
  value. `new UvSize(orientation)` is taken to be (0, 0).
- Double arithmetic is exact real arithmetic. Rounding and infinities are not
  modelled.
- `Estimation.GetPosition`: when the estimate's U is zero, or no whole element
  fits on a line, C# divides by zero and yields NaN or infinite coordinates.
  The model returns a NaN position instead.
- `Estimation.GetOrEstimateAnchorElementForViewport`: requires non-NaN viewport
  and estimate arguments, because converting NaN to `int` has no defined value
  in .NET.
- `UvGeometry.Trunc`: does not model the 32-bit range of `int`. A double outside
  that range converts to an unspecified value in .NET.
- Integer arithmetic is unbounded. 32-bit overflow of the index arithmetic is
  not modelled.
- `CollectionChanges.ItemsInserted`: `count` is a natural number. Collection
  change notifications never carry a negative count.
- `CollectionChanges.ItemsRemoved`: `count` is a natural number, for the same
  reason.
- `InsertMany` from PleasantUI's core extensions is not part of this model. It
  is taken to insert `count` copies of the filler at the given position
  (`CollectionChanges.Splice`).
- `MathUtilities.IsZero` from Avalonia is not part of this model. It is taken to
  be Avalonia's test `|x| < 10 * DoubleEpsilon` (`UvGeometry.IsZero`).
- The delegates are recorded as traces of calls. What a delegate does, and an
  exception thrown from one, are not modelled.
- The class is used from the UI thread only; there is no concurrency to model.
- Setting a slot to `null` before the slots are removed from the list cannot
  be observed afterwards, so the model removes the slots directly.

=== FILE: collection_changes.dfy ===
/**
 * Adjusting the window when the source collection reports that items were
 * inserted or removed.
 */
module CollectionChanges {
  import opened Results
  import opened UvGeometry
  import opened Traces
  import opened RealizedWindow

  /** The window after a collection change, with the `updateElementIndex` and
      `recycleElement` calls the change made, in order. */
  datatype Change<E> = Change(window: Window<E>, reindexed: seq<Reindex<E>>, recycled: seq<E>)

  /** `s` with `count` copies of `filler` inserted before position `at`. */
  function Splice<T>(s: seq<T>, at: nat, count: nat, filler: T): (r: seq<T>)
    requires at <= |s|
    ensures |r| == |s| + count
    ensures r[..at] == s[..at] && r[at + count..] == s[at..]
    ensures forall j :: at <= j < at + count ==> r[j] == filler
  {
    s[..at] + seq(count, _ => filler) + s[at..]
  }

  /** What a spliced sequence holds at each position. */
  lemma SpliceAt<T>(s: seq<T>, at: nat, count: nat, filler: T, j: int)
    requires at <= |s| && 0 <= j < |s| + count
    ensures Splice(s, at, count, filler)[j] ==
      if j < at then s[j] else if j < at + count then filler else s[j - count]
  {
    var r := Splice(s, at, count, filler);
    if j < at {
      assert r[j] == r[..at][j];
    } else if j >= at + count {
      assert r[j] == r[at + count..][j - (at + count)];
    }
  }

  // ---------------------------------------------------------------- inserts

  /** An insert before the window: the window moves up by `count`, its slots
      untouched. The `updateElementIndex` counter starts at the insertion
      point's window-relative position `index - FirstIndex`, so the indices it
      reports are that offset plus the slot number, not source indices. */
  function InsertBefore<E>(w: Window<E>, index: int, count: nat): (c: Change<E>)
    requires Valid(w) && Count(w) > 0 && 0 <= index < FirstIndex(w)
    ensures Valid(c.window) && c.recycled == []
    ensures FirstIndex(c.window) == FirstIndex(w) + count && LastIndex(c.window) == LastIndex(w) + count
    ensures c.window.elements == w.elements && c.window.positions == w.positions
    ensures c.window.size == w.size && c.window.startUv == w.startUv
    ensures c.window.startUnstable == w.startUnstable
  {
    var realizedIndex := index - FirstIndex(w);
    Change(w.(firstIndex := w.firstIndex + count),
           Reindexed(w.elements, realizedIndex + count, -(count as int)), [])
  }

  /** An insert inside the window: `count` placeholder slots (no element, NaN
      position) open at the insertion point, the window keeps its first index
      and grows at the end, and the tracked size becomes NaN. The
      `updateElementIndex` counter starts at the insertion slot, so it reports
      slot numbers of the old and the new window. */
  function InsertInside<E>(w: Window<E>, index: int, count: nat): (c: Change<E>)
    requires Valid(w) && Count(w) > 0 && FirstIndex(w) <= index <= LastIndex(w)
    ensures var k := index - FirstIndex(w);
      && Valid(c.window) && c.recycled == []
      && FirstIndex(c.window) == FirstIndex(w)
      && LastIndex(c.window) == LastIndex(w) + count
      && EstimateElementSize(c.window) == None
      && c.window.startUv == w.startUv && c.window.startUnstable == w.startUnstable
      && c.window.elements[..k] == w.elements[..k] && c.window.elements[k + count..] == w.elements[k..]
      && c.window.positions[..k] == w.positions[..k] && c.window.positions[k + count..] == w.positions[k..]
      && (forall j :: k <= j < k + count ==> c.window.elements[j] == None && c.window.positions[j] == NaN)
  {
    var realizedIndex := index - FirstIndex(w);
    Change(w.(elements := Splice(w.elements, realizedIndex, count, None),
              positions := Splice(w.positions, realizedIndex, count, NaN),
              size := NaN),
           Reindexed(w.elements[realizedIndex..], realizedIndex + count, -(count as int)), [])
  }

  /** `count` items were inserted at source index `index`. Throws for a
      negative index; changes nothing on an empty window or for an insert past
      its end; otherwise moves the window (insert before it) or opens
      placeholder slots in it (insert inside it). */
  function ItemsInserted<E>(w: Window<E>, index: int, count: nat): (r: Result<Change<E>>)
    requires Valid(w)
    ensures r.Err? <==> index < 0
    ensures r.Err? ==> r.error == ArgumentOutOfRange
    ensures r.Ok? ==> Valid(r.value.window) && r.value.recycled == []
    ensures 0 <= index && (Count(w) == 0 || index > LastIndex(w)) ==> r == Ok(Change(w, [], []))
    ensures 0 <= index && Count(w) > 0 && index < FirstIndex(w) ==> r == Ok(InsertBefore(w, index, count))
    ensures Count(w) > 0 && FirstIndex(w) <= index <= LastIndex(w) ==> r == Ok(InsertInside(w, index, count))
  {
    if index < 0 then Err(ArgumentOutOfRange)
    else if Count(w) == 0 then Ok(Change(w, [], []))
    else
      var realizedIndex := index - FirstIndex(w);
      if realizedIndex >= Count(w) then Ok(Change(w, [], []))
      else if realizedIndex < 0 then Ok(InsertBefore(w, index, count))
      else Ok(InsertInside(w, index, count))
  }

  /** After an insert, every source index of the window holds what the index
      it moved from held, and the inserted range holds placeholders. */
  lemma ItemsInsertedMovesIndices<E>(w: Window<E>, index: int, count: nat, s: int)
    requires Valid(w) && ItemsInserted(w, index, count).Ok?
    requires FirstIndex(ItemsInserted(w, index, count).value.window) <= s
    requires s <= LastIndex(ItemsInserted(w, index, count).value.window)
    ensures GetElement(ItemsInserted(w, index, count).value.window, s) ==
      if s < index then GetElement(w, s)
      else if s < index + count then None
      else GetElement(w, s - count)
  {
    if Count(w) > 0 && FirstIndex(w) <= index <= LastIndex(w) {
      InsertInsideMovesIndices(w, index, count, s);
    } else if Count(w) > 0 && index < FirstIndex(w) {
      assert ItemsInserted(w, index, count).value.window == InsertBefore(w, index, count).window;
    }
  }

  /** The inside case of `ItemsInsertedMovesIndices`. */
  lemma InsertInsideMovesIndices<E>(w: Window<E>, index: int, count: nat, s: int)
    requires Valid(w) && Count(w) > 0 && FirstIndex(w) <= index <= LastIndex(w)
    requires FirstIndex(w) <= s <= LastIndex(w) + count
    ensures GetElement(InsertInside(w, index, count).window, s) ==
      if s < index then GetElement(w, s)
      else if s < index + count then None
      else GetElement(w, s - count)
  {
    var w' := InsertInside(w, index, count).window;
    assert w'.elements == Splice(w.elements, index - FirstIndex(w), count, None);
    SplicedWindowAt(w, w', index, count, s);
  }

  /** Index lookup in a window whose slots are `w`'s with `count` empty slots
      opened at source index `index`. */
  lemma SplicedWindowAt<E>(w: Window<E>, w': Window<E>, index: int, count: nat, s: int)
    requires Count(w) > 0 && FirstIndex(w) <= index <= LastIndex(w)
    requires w'.elements == Splice(w.elements, index - FirstIndex(w), count, None)
    requires w'.firstIndex == w.firstIndex
    requires FirstIndex(w) <= s <= LastIndex(w) + count
    ensures GetElement(w', s) ==
      if s < index then GetElement(w, s)
      else if s < index + count then None
      else GetElement(w, s - count)
  {
    var k := index - FirstIndex(w);
    var i := s - FirstIndex(w);
    assert GetElement(w', s) == w'.elements[i];
    assert w'.elements[i] == if i < k then w.elements[i] else if i < k + count then None else w.elements[i - count] by {
      SpliceAt(w.elements, k, count, None, i);
    }
  }

  /** An insert loses no realized element: each old source index reappears,
      moved up by `count` when it lay at or after the insertion point. */
  lemma ItemsInsertedKeepsElements<E>(w: Window<E>, index: int, count: nat, s: int)
    requires Valid(w) && ItemsInserted(w, index, count).Ok?
    requires FirstIndex(w) <= s <= LastIndex(w)
    ensures var s' := if s < index then s else s + count;
      var w' := ItemsInserted(w, index, count).value.window;
      FirstIndex(w') <= s' <= LastIndex(w') && GetElement(w', s') == GetElement(w, s)
  {
    var s' := if s < index then s else s + count;
    ItemsInsertedMovesIndices(w, index, count, s');
  }

  /** Inside the window, `updateElementIndex` is told the slot each realized
      element occupied before the insert and the slot it occupies after it,
      once per realized element from the insertion point on. */
  lemma InsertInsideReindexes<E>(w: Window<E>, index: int, count: nat, ev: Reindex<E>)
    requires Valid(w) && Count(w) > 0 && FirstIndex(w) <= index <= LastIndex(w)
    ensures var k := index - FirstIndex(w);
      && (ev in InsertInside(w, index, count).reindexed <==>
            && k <= ev.oldIndex < Count(w)
            && w.elements[ev.oldIndex] == Some(ev.elem)
            && ev.newIndex == ev.oldIndex + count)
      && |InsertInside(w, index, count).reindexed| == |Present(w.elements[k..])|
  {
    var c := InsertInside(w, index, count);
    var k := index - FirstIndex(w);
    assert c.reindexed == Reindexed(w.elements[k..], k + count, -(count as int));
    OpenedSlotsReports(w.elements, k, count, ev);
  }

  /** `InsertInsideReindexes` over a bare slot list: walking the slots from `k`
      on, numbered as if `count` slots had been opened before them. */
  lemma OpenedSlotsReports<E>(slots: seq<Option<E>>, k: nat, count: nat, ev: Reindex<E>)
    requires k <= |slots|
    ensures var reports := Reindexed(slots[k..], k + count, -(count as int));
      && (ev in reports <==>
            k <= ev.oldIndex < |slots| && slots[ev.oldIndex] == Some(ev.elem) && ev.newIndex == ev.oldIndex + count)
      && |reports| == |Present(slots[k..])|
  {
    ReindexedSuffix(slots, k, count, -(count as int), ev);
    ReindexedLength(slots[k..], k + count, -(count as int));
  }

  /** Each element reported by an insert inside the window sits, afterwards,
      in the slot reported as its new index. */
  lemma InsertInsideReindexesToSlot<E>(w: Window<E>, index: int, count: nat, ev: Reindex<E>)
    requires Valid(w) && Count(w) > 0 && FirstIndex(w) <= index <= LastIndex(w)
    requires ev in InsertInside(w, index, count).reindexed
    ensures var w' := InsertInside(w, index, count).window;
      0 <= ev.newIndex < Count(w') && w'.elements[ev.newIndex] == Some(ev.elem)
  {
    var k := index - FirstIndex(w);
    var reports, spliced := InsertInsideParts(w, index, count);
    SplicedReportToSlot(w.elements, spliced, k, count, ev);
  }

  /** The reports and the slot list of an insert inside the window, by
      definition. */
  lemma InsertInsideParts<E>(w: Window<E>, index: int, count: nat)
    returns (reports: seq<Reindex<E>>, spliced: seq<Option<E>>)
    requires Valid(w) && Count(w) > 0 && FirstIndex(w) <= index <= LastIndex(w)
    ensures var k := index - FirstIndex(w);
      && reports == InsertInside(w, index, count).reindexed
      && reports == Reindexed(w.elements[k..], k + count, -(count as int))
      && spliced == InsertInside(w, index, count).window.elements
      && spliced == Splice(w.elements, k, count, None)
  {
    var c := InsertInside(w, index, count);
    reports, spliced := c.reindexed, c.window.elements;
  }

  /** `InsertInsideReindexesToSlot` over bare slot lists. */
  lemma SplicedReportToSlot<E>(slots: seq<Option<E>>, spliced: seq<Option<E>>, k: nat, count: nat, ev: Reindex<E>)
    requires k <= |slots| && spliced == Splice(slots, k, count, None)
    requires ev in Reindexed(slots[k..], k + count, -(count as int))
    ensures 0 <= ev.newIndex < |spliced| && spliced[ev.newIndex] == Some(ev.elem)
  {
    assert k + count <= ev.newIndex < count + |slots| && slots[ev.newIndex - count] == Some(ev.elem) by {
      ReindexedSuffix(slots, k, count, -(count as int), ev);
    }
    SpliceAt(slots, k, count, None, ev.newIndex);
  }

  /** Before the window, `updateElementIndex` reports each realized element
      once, with indices that differ by `count` and are its slot number offset
      by `index - FirstIndex`. */
  lemma InsertBeforeReindexes<E>(w: Window<E>, index: int, count: nat, ev: Reindex<E>)
    requires Valid(w) && Count(w) > 0 && 0 <= index < FirstIndex(w)
    ensures var c := InsertBefore(w, index, count);
      var k := index - FirstIndex(w);
      && (ev in c.reindexed <==>
            && 0 <= ev.oldIndex - k < Count(w)
            && w.elements[ev.oldIndex - k] == Some(ev.elem)
            && ev.newIndex == ev.oldIndex + count)
      && |c.reindexed| == |Present(w.elements)|
  {
    var k := index - FirstIndex(w);
    ReindexedMembership(w.elements, k + count, -(count as int), ev);
    ReindexedLength(w.elements, k + count, -(count as int));
  }

  // --------------------------------------------------------------- removals

  /** The first slot an overlapping removal drops. */
  function RemovedFrom<E>(w: Window<E>, index: int): int {
    Max(index - FirstIndex(w), 0)
  }

  /** One past the last slot an overlapping removal drops. */
  function RemovedUpTo<E>(w: Window<E>, index: int, count: nat): int {
    Min(index + count - FirstIndex(w), Count(w))
  }

  /** A removal wholly before the window: the window moves down by `count`
      and the start is marked unstable. Every realized element is reported,
      counting up from the new first index, with `newIndex - count` given as
      its old index. */
  function RemoveBefore<E>(w: Window<E>, count: nat): (c: Change<E>)
    requires Valid(w) && Count(w) > 0 && w.firstIndex - count >= 0
    ensures Valid(c.window) && c.recycled == []
    ensures FirstIndex(c.window) == FirstIndex(w) - count && LastIndex(c.window) == LastIndex(w) - count
    ensures c.window.elements == w.elements && c.window.positions == w.positions
    ensures c.window.size == w.size && c.window.startUv == w.startUv && c.window.startUnstable
  {
    var shifted := w.(firstIndex := w.firstIndex - count, startUnstable := true);
    Change(shifted, Reindexed(w.elements, w.firstIndex - count, -(count as int)), [])
  }

  /** The window after a removal overlapping it: the slots of the overlap are
      dropped from both lists. When the removal starts at or before the first
      index the window restarts at `index` and the start is marked unstable,
      unless the slot/index comparison below says otherwise. */
  function RemoveOverlapWindow<E>(w: Window<E>, index: int, count: nat): (r: Window<E>)
    requires Valid(w) && Count(w) > 0 && 0 <= index <= LastIndex(w) && FirstIndex(w) <= index + count
    ensures var lo := RemovedFrom(w, index);
      var hi := RemovedUpTo(w, index, count);
      && 0 <= lo <= hi <= Count(w)
      && Valid(r)
      && Count(r) == Count(w) - (hi - lo)
      && r.elements == w.elements[..lo] + w.elements[hi..]
      && r.positions == w.positions[..lo] + w.positions[hi..]
      && r.size == w.size && r.startUv == w.startUv
      && (index > FirstIndex(w) ==> r.firstIndex == FirstIndex(w) && r.startUnstable == w.startUnstable)
      && (index <= FirstIndex(w) && Count(r) > 0 ==> r.firstIndex == index)
      && (w.startUnstable ==> r.startUnstable)
  {
    var first := FirstIndex(w);
    var last := LastIndex(w);
    var startIndex := index - first;
    var start := RemovedFrom(w, index);
    var end := RemovedUpTo(w, index, count);
    // The code compares the slot `end` with the source index `last`.
    var restart := startIndex <= 0 && end < last;
    w.(elements := w.elements[..start] + w.elements[end..],
       positions := w.positions[..start] + w.positions[end..],
       firstIndex := if restart then index else first,
       startUnstable := w.startUnstable || restart)
  }

  /** A removal overlapping the window: the realized elements of the overlap
      are recycled, in slot order, and the window is cut as
      `RemoveOverlapWindow` describes. Each realized element after the dropped
      slots is reported with its new source index and `newIndex + count`.
      Recycled are exactly the elements realized at a removed source index,
      each as often as a removed slot holds it; reported are exactly the
      elements realized after the cut, each with the index it held before. */
  function RemoveOverlap<E(!new)>(w: Window<E>, index: int, count: nat): (c: Change<E>)
    requires Valid(w) && Count(w) > 0 && 0 <= index <= LastIndex(w) && FirstIndex(w) <= index + count
    ensures c == CutOverlap(w, index, count)
    ensures forall x ::
      multiset(c.recycled)[x] == multiset(w.elements[RemovedFrom(w, index)..RemovedUpTo(w, index, count)])[Some(x)]
    ensures forall x :: x in c.recycled <==>
      exists s :: index <= s < index + count && GetElement(w, s) == Some(x)
    ensures forall ev :: ev in c.reindexed <==>
      && FirstIndex(c.window) + RemovedFrom(w, index) <= ev.newIndex
      && GetElement(c.window, ev.newIndex) == Some(ev.elem)
      && ev.oldIndex == ev.newIndex + count
    ensures forall ev :: ev in c.reindexed ==> GetElement(w, ev.oldIndex) == Some(ev.elem)
  {
    CutOverlapRecycles(w, index, count);
    CutOverlapReports(w, index, count);
    CutOverlap(w, index, count)
  }

  /** The change `RemoveOverlap` computes: the cut window, the walk of the
      slots after the cut, and the realized elements of the cut slots. */
  function CutOverlap<E>(w: Window<E>, index: int, count: nat): (c: Change<E>)
    requires Valid(w) && Count(w) > 0 && 0 <= index <= LastIndex(w) && FirstIndex(w) <= index + count
    ensures var lo := RemovedFrom(w, index);
      && c.window == RemoveOverlapWindow(w, index, count)
      && c.recycled == Present(w.elements[lo..RemovedUpTo(w, index, count)])
      && c.reindexed == Reindexed(c.window.elements[lo..], c.window.firstIndex + lo, count)
  {
    var w' := RemoveOverlapWindow(w, index, count);
    var start := RemovedFrom(w, index);
    Change(w', Reindexed(w'.elements[start..], w'.firstIndex + start, count),
           Present(w.elements[start..RemovedUpTo(w, index, count)]))
  }

  /** What an overlapping removal recycles. */
  lemma CutOverlapRecycles<E>(w: Window<E>, index: int, count: nat)
    requires Valid(w) && Count(w) > 0 && 0 <= index <= LastIndex(w) && FirstIndex(w) <= index + count
    ensures var c := CutOverlap(w, index, count);
      forall x ::
        multiset(c.recycled)[x] == multiset(w.elements[RemovedFrom(w, index)..RemovedUpTo(w, index, count)])[Some(x)]
    ensures var c := CutOverlap(w, index, count);
      forall x :: x in c.recycled <==>
        exists s :: index <= s < index + count && GetElement(w, s) == Some(x)
  {
    var removed := w.elements[RemovedFrom(w, index)..RemovedUpTo(w, index, count)];
    assert CutOverlap(w, index, count).recycled == Present(removed);
    PresentMultiplicity(removed);
    SlicePresentAt(w, RemovedFrom(w, index), RemovedUpTo(w, index, count), index, count);
  }

  /** What an overlapping removal reports. */
  lemma CutOverlapReports<E>(w: Window<E>, index: int, count: nat)
    requires Valid(w) && Count(w) > 0 && 0 <= index <= LastIndex(w) && FirstIndex(w) <= index + count
    ensures var c := CutOverlap(w, index, count);
      forall ev :: ev in c.reindexed <==>
        && FirstIndex(c.window) + RemovedFrom(w, index) <= ev.newIndex
        && GetElement(c.window, ev.newIndex) == Some(ev.elem)
        && ev.oldIndex == ev.newIndex + count
    ensures var c := CutOverlap(w, index, count);
      forall ev :: ev in c.reindexed ==> GetElement(w, ev.oldIndex) == Some(ev.elem)
  {
    var c := CutOverlap(w, index, count);
    var w' := RemoveOverlapWindow(w, index, count);
    var lo := RemovedFrom(w, index);
    assert c.window == w';
    assert c.reindexed == Reindexed(w'.elements[lo..], w'.firstIndex + lo, count);
    ReindexedTailAll(w', lo, count);
    OverlapTailReindexesFrom(w, index, count, c.reindexed);
  }

  /** The realized elements of the removed slots are those realized at the
      removed source indices. */
  lemma SlicePresentAt<E>(w: Window<E>, lo: int, hi: int, index: int, count: nat)
    requires Valid(w) && Count(w) > 0
    requires lo == Max(index - FirstIndex(w), 0) && hi == Min(index + count - FirstIndex(w), Count(w))
    requires 0 <= lo <= hi <= Count(w)
    ensures forall x :: x in Present(w.elements[lo..hi]) <==>
      exists s :: index <= s < index + count && GetElement(w, s) == Some(x)
  {
    forall x {
      SliceHoldsAt(w, lo, hi, index, count, x);
    }
  }

  /** `SlicePresentAt` for a single element. */
  lemma SliceHoldsAt<E>(w: Window<E>, lo: int, hi: int, index: int, count: nat, x: E)
    requires Valid(w) && Count(w) > 0
    requires lo == Max(index - FirstIndex(w), 0) && hi == Min(index + count - FirstIndex(w), Count(w))
    requires 0 <= lo <= hi <= Count(w)
    ensures x in Present(w.elements[lo..hi]) <==>
      exists s :: index <= s < index + count && GetElement(w, s) == Some(x)
  {
    var slots := w.elements[lo..hi];
    assert x in Present(slots) <==> Some(x) in slots by {
      PresentMembership(slots);
    }
    if Some(x) in slots {
      var j :| 0 <= j < |slots| && slots[j] == Some(x);
      SliceSlotAt(w, lo, hi, index, count, j);
    }
    if exists s :: index <= s < index + count && GetElement(w, s) == Some(x) {
      var s :| index <= s < index + count && GetElement(w, s) == Some(x);
      SliceSlotAt(w, lo, hi, index, count, s - FirstIndex(w) - lo);
    }
  }

  /** Slot `j` of the removed slice is the window's source index
      `FirstIndex + lo + j`, which lies in the removed range; and a removed
      source index the window covers falls in the slice. */
  lemma SliceSlotAt<E>(w: Window<E>, lo: int, hi: int, index: int, count: nat, j: int)
    requires Valid(w) && Count(w) > 0
    requires lo == Max(index - FirstIndex(w), 0) && hi == Min(index + count - FirstIndex(w), Count(w))
    requires 0 <= lo <= hi <= Count(w)
    ensures var s := FirstIndex(w) + lo + j;
      (0 <= j < hi - lo ==> index <= s < index + count && GetElement(w, s) == w.elements[lo..hi][j])
      && (index <= s < index + count && GetElement(w, s).Some? ==>
            0 <= j < hi - lo && GetElement(w, s) == w.elements[lo..hi][j])
  {
  }

  /** The old index of each element reported after the cut is where that
      element was realized before the removal. */
  lemma OverlapTailReindexesFrom<E>(w: Window<E>, index: int, count: nat, reports: seq<Reindex<E>>)
    requires Valid(w) && Count(w) > 0 && 0 <= index <= LastIndex(w) && FirstIndex(w) <= index + count
    requires var w' := RemoveOverlapWindow(w, index, count);
      var lo := RemovedFrom(w, index);
      reports == Reindexed(w'.elements[lo..], w'.firstIndex + lo, count)
    ensures forall ev :: ev in reports ==> GetElement(w, ev.oldIndex) == Some(ev.elem)
  {
    var w' := RemoveOverlapWindow(w, index, count);
    var lo := RemovedFrom(w, index);
    OverlapTailShifted(w, index, count);
    forall ev | ev in reports
      ensures GetElement(w, ev.oldIndex) == Some(ev.elem)
    {
      ShiftedReportFrom(w, w', lo, count, ev);
    }
  }

  /** After an overlapping removal, every source index after the cut holds
      what the index `count` above it held before. */
  lemma OverlapTailShifted<E>(w: Window<E>, index: int, count: nat)
    requires Valid(w) && Count(w) > 0 && 0 <= index <= LastIndex(w) && FirstIndex(w) <= index + count
    ensures var w' := RemoveOverlapWindow(w, index, count);
      forall s :: Count(w') > 0 && FirstIndex(w') + RemovedFrom(w, index) <= s <= LastIndex(w') ==>
        GetElement(w', s) == GetElement(w, s + count)
  {
    var w' := RemoveOverlapWindow(w, index, count);
    forall s | Count(w') > 0 && FirstIndex(w') + RemovedFrom(w, index) <= s <= LastIndex(w')
      ensures GetElement(w', s) == GetElement(w, s + count)
    {
      OverlapTailMovedFrom(w, index, count, s);
    }
  }

  /** In a window whose slots from `lo` on hold what `w` holds `count` source
      indices higher, a report from walking those slots names, as its old
      index, where `w` realizes the reported element. */
  lemma ShiftedReportFrom<E>(w: Window<E>, w': Window<E>, lo: int, count: nat, ev: Reindex<E>)
    requires 0 <= lo <= Count(w')
    requires forall s :: Count(w') > 0 && FirstIndex(w') + lo <= s <= LastIndex(w') ==>
      GetElement(w', s) == GetElement(w, s + count)
    requires ev in Reindexed(w'.elements[lo..], w'.firstIndex + lo, count)
    ensures GetElement(w, ev.oldIndex) == Some(ev.elem)
  {
    TailReportAt(w', lo, count, ev);
  }

  /** A report from walking a window's slots from `lo` on names a source index
      the window covers, realized with the reported element. */
  lemma TailReportAt<E>(w: Window<E>, lo: int, delta: int, ev: Reindex<E>)
    requires 0 <= lo <= Count(w)
    requires ev in Reindexed(w.elements[lo..], w.firstIndex + lo, delta)
    ensures Count(w) > 0 && FirstIndex(w) + lo <= ev.newIndex <= LastIndex(w)
    ensures GetElement(w, ev.newIndex) == Some(ev.elem) && ev.oldIndex == ev.newIndex + delta
  {
    ReindexedTail(w, lo, delta, ev);
  }

  /** A source index after the cut holds what the index `count` above it held
      before the removal. */
  lemma OverlapTailMovedFrom<E>(w: Window<E>, index: int, count: nat, s: int)
    requires Valid(w) && Count(w) > 0 && 0 <= index <= LastIndex(w) && FirstIndex(w) <= index + count
    requires var w' := RemoveOverlapWindow(w, index, count);
      Count(w') > 0 && FirstIndex(w') + RemovedFrom(w, index) <= s <= LastIndex(w')
    ensures GetElement(RemoveOverlapWindow(w, index, count), s) == GetElement(w, s + count)
  {
    OverlapCutStart(w, index, count);
    RemoveOverlapMovesIndices(w, index, count, s);
  }

  /** After an overlapping removal, the slots after the cut start at or past
      the removal's source index. */
  lemma OverlapCutStart<E>(w: Window<E>, index: int, count: nat)
    requires Valid(w) && Count(w) > 0 && 0 <= index <= LastIndex(w) && FirstIndex(w) <= index + count
    ensures var w' := RemoveOverlapWindow(w, index, count);
      Count(w') > 0 ==> index <= FirstIndex(w') + RemovedFrom(w, index)
  {
  }

  /** `count` items were removed starting at source index `index`. Throws for a
      negative index; changes nothing on an empty window or for a removal past
      its end; otherwise moves the window (removal before it) or cuts the
      overlap out of it. */
  function ItemsRemoved<E(!new)>(w: Window<E>, index: int, count: nat): (r: Result<Change<E>>)
    requires Valid(w)
    ensures r.Err? <==> index < 0
    ensures r.Err? ==> r.error == ArgumentOutOfRange
    ensures r.Ok? ==> Valid(r.value.window) && r.value.window.size == w.size
    ensures 0 <= index && (Count(w) == 0 || index > LastIndex(w)) ==> r == Ok(Change(w, [], []))
    ensures 0 <= index && Count(w) > 0 && index + count < FirstIndex(w) ==> r == Ok(RemoveBefore(w, count))
    ensures 0 <= index && Count(w) > 0 && index <= LastIndex(w) && FirstIndex(w) <= index + count ==>
      r == Ok(RemoveOverlap(w, index, count))
  {
    if index < 0 then Err(ArgumentOutOfRange)
    else if Count(w) == 0 then Ok(Change(w, [], []))
    else if index + count - FirstIndex(w) < 0 then Ok(RemoveBefore(w, count))
    else if index - FirstIndex(w) < Count(w) then Ok(RemoveOverlap(w, index, count))
    else Ok(Change(w, [], []))
  }

  /** After a removal, every source index of the window holds what the index
      it moved from held: indices before the removal point keep their
      element, later ones take the element from `count` places further on. */
  lemma ItemsRemovedMovesIndices<E(!new)>(w: Window<E>, index: int, count: nat, s: int)
    requires Valid(w) && ItemsRemoved(w, index, count).Ok?
    requires FirstIndex(ItemsRemoved(w, index, count).value.window) <= s
    requires s <= LastIndex(ItemsRemoved(w, index, count).value.window)
    ensures GetElement(ItemsRemoved(w, index, count).value.window, s) ==
      GetElement(w, if s < index then s else s + count)
  {
    if Count(w) > 0 && index <= LastIndex(w) && FirstIndex(w) <= index + count {
      RemoveOverlapMovesIndices(w, index, count, s);
    }
  }

  /** The overlapping case of `ItemsRemovedMovesIndices`. */
  lemma RemoveOverlapMovesIndices<E>(w: Window<E>, index: int, count: nat, s: int)
    requires Valid(w) && Count(w) > 0 && 0 <= index <= LastIndex(w) && FirstIndex(w) <= index + count
    requires FirstIndex(RemoveOverlapWindow(w, index, count)) <= s
    requires s <= LastIndex(RemoveOverlapWindow(w, index, count))
    ensures GetElement(RemoveOverlapWindow(w, index, count), s) ==
      GetElement(w, if s < index then s else s + count)
  {
    var w' := RemoveOverlapWindow(w, index, count);
    var first := FirstIndex(w);
    var start := RemovedFrom(w, index);
    var end := RemovedUpTo(w, index, count);
    var i := s - w'.firstIndex;
    if Count(w') > 0 {
      assert w'.elements == w.elements[..start] + w.elements[end..];
      assert 0 <= start <= end <= |w.elements|;
      assert 0 <= i < |w'.elements| == |w.elements| - (end - start);
      CutAt(w.elements, start, end, i);
      if i < start {
        assert index > first && w'.firstIndex == first;
      } else if index > first {
        assert w'.firstIndex == first && end == index + count - first;
      } else {
        assert w'.firstIndex == index && end == index + count - first;
      }
    }
  }

  /** Indexing into a sequence with the slots `[lo, hi)` cut out. */
  lemma CutAt<T>(a: seq<T>, lo: int, hi: int, i: int)
    requires 0 <= lo <= hi <= |a| && 0 <= i < |a| - (hi - lo)
    ensures (a[..lo] + a[hi..])[i] == if i < lo then a[i] else a[i + (hi - lo)]
  {
  }

  /** A removal loses no realized element outside the removed range: each
      surviving source index reappears, moved down by `count` when it lay
      after the range. */
  lemma ItemsRemovedKeepsElements<E(!new)>(w: Window<E>, index: int, count: nat, s: int)
    requires Valid(w) && ItemsRemoved(w, index, count).Ok?
    requires FirstIndex(w) <= s <= LastIndex(w)
    requires s < index || index + count <= s
    ensures var s' := if s < index then s else s - count;
      var w' := ItemsRemoved(w, index, count).value.window;
      FirstIndex(w') <= s' <= LastIndex(w') && GetElement(w', s') == GetElement(w, s)
  {
    var s' := if s < index then s else s - count;
    var w' := ItemsRemoved(w, index, count).value.window;
    if Count(w) > 0 && index <= LastIndex(w) && FirstIndex(w) <= index + count {
      assert w' == RemoveOverlapWindow(w, index, count);
      RemoveOverlapKeepsElements(w, index, count, s);
    } else {
      ItemsRemovedMovesIndices(w, index, count, s');
    }
  }

  /** `ItemsRemovedKeepsElements` for a removal that overlaps the window. */
  lemma RemoveOverlapKeepsElements<E>(w: Window<E>, index: int, count: nat, s: int)
    requires Valid(w) && Count(w) > 0 && 0 <= index <= LastIndex(w) && FirstIndex(w) <= index + count
    requires FirstIndex(w) <= s <= LastIndex(w)
    requires s < index || index + count <= s
    ensures var s' := if s < index then s else s - count;
      var w' := RemoveOverlapWindow(w, index, count);
      FirstIndex(w') <= s' <= LastIndex(w') && GetElement(w', s') == GetElement(w, s)
  {
    var s' := if s < index then s else s - count;
    var w' := RemoveOverlapWindow(w, index, count);
    assert FirstIndex(w') <= s' <= LastIndex(w');
    RemoveOverlapMovesIndices(w, index, count, s');
  }

  /** Before the window, `updateElementIndex` is told each realized element's
      new source index correctly, but its old index is reported as `count`
      below the new one, while the element actually sat `count` above it. */
  lemma RemoveBeforeReindexes<E>(w: Window<E>, count: nat, ev: Reindex<E>)
    requires Valid(w) && Count(w) > 0 && w.firstIndex - count >= 0
    ensures var c := RemoveBefore(w, count);
      && (ev in c.reindexed <==>
            GetElement(c.window, ev.newIndex) == Some(ev.elem) && ev.oldIndex == ev.newIndex - count)
      && (ev in c.reindexed ==> GetElement(w, ev.newIndex + count) == Some(ev.elem))
      && |c.reindexed| == |Present(w.elements)|
  {
    ReindexedMembership(w.elements, w.firstIndex - count, -(count as int), ev);
    ReindexedLength(w.elements, w.firstIndex - count, -(count as int));
  }

  /** Walking a window's slots from `lo` on reports the elements realized
      there under their source indices. */
  lemma ReindexedTail<E>(w: Window<E>, lo: nat, delta: int, ev: Reindex<E>)
    requires lo <= Count(w)
    ensures ev in Reindexed(w.elements[lo..], w.firstIndex + lo, delta) <==>
      && FirstIndex(w) + lo <= ev.newIndex
      && GetElement(w, ev.newIndex) == Some(ev.elem)
      && ev.oldIndex == ev.newIndex + delta
  {
    ReindexedSuffix(w.elements, lo, w.firstIndex, delta, ev);
  }

  /** `ReindexedTail` for every report at once. */
  lemma ReindexedTailAll<E>(w: Window<E>, lo: nat, delta: int)
    requires lo <= Count(w)
    ensures forall ev :: ev in Reindexed(w.elements[lo..], w.firstIndex + lo, delta) <==>
      && FirstIndex(w) + lo <= ev.newIndex
      && GetElement(w, ev.newIndex) == Some(ev.elem)
      && ev.oldIndex == ev.newIndex + delta
  {
    forall ev {
      ReindexedTail(w, lo, delta, ev);
    }
  }

  /** The restart test compares a slot number with a source index: a removal
      at the head of a window that starts at index 0 and leaves one slot does
      not mark the start unstable, while the same removal on a window one
      index further up does. */
  lemma RemoveOverlapRestartTestMixesIndices<E(!new)>(a: E, b: E, c: E, p: Uv)
    ensures var w0 := Window([Some(a), Some(b), Some(c)], [p, p, p], 0, p, p, false);
      var r0 := ItemsRemoved(w0, 0, 2).value.window;
      Count(r0) == 1 && FirstIndex(r0) == 0 && !r0.startUnstable
    ensures var w1 := Window([Some(a), Some(b), Some(c)], [p, p, p], 1, p, p, false);
      var r1 := ItemsRemoved(w1, 1, 2).value.window;
      Count(r1) == 1 && FirstIndex(r1) == 1 && r1.startUnstable
  {
  }

  // ------------------------------------------------------------------ reset

  /** The state of a window whose slots have all been released: no lists,
      first index 0, default size and start position. */
  function Cleared<E>(w: Window<E>): (r: Window<E>)
    ensures Valid(r) && Count(r) == 0 && FirstIndex(r) == -1 && LastIndex(r) == -1
    ensures EstimateElementSize(r) == Some(Zero) && r.startUv == Zero
    ensures r.startUnstable == w.startUnstable
  {
    w.(elements := [], positions := [], firstIndex := 0, size := Zero, startUv := Zero)
  }

  /** The source collection was reset: every realized element is handed to
      `recycleElement` and the window is cleared. An empty window is left
      exactly as it is. The unstable-start flag survives the reset. */
  function ItemsReset<E>(w: Window<E>): (r: Change<E>)
    requires Valid(w)
    ensures Valid(r.window) && Count(r.window) == 0 && FirstIndex(r.window) == -1
    ensures r.reindexed == [] && r.window.startUnstable == w.startUnstable
    ensures Count(w) == 0 ==> r == Change(w, [], [])
    ensures Count(w) > 0 ==> EstimateElementSize(r.window) == Some(Zero) && r.window.startUv == Zero
  {
    if Count(w) == 0 then Change(w, [], [])
    else Change(Cleared(w), [], Present(w.elements))
  }

  /** A reset recycles every realized element, each as often as a slot holds
      it, and nothing else. */
  lemma ItemsResetRecyclesAll<E>(w: Window<E>)
    requires Valid(w)
    ensures forall x :: multiset(ItemsReset(w).recycled)[x] == multiset(w.elements)[Some(x)]
  {
    PresentMultiplicity(w.elements);
  }
}

=== FILE: estimation.dfy ===
/**
 * Finding where a layout pass should start realizing elements, and estimating
 * the position of an element that is not realized, from a uniform element
 * size on a grid of lines.
 */
module Estimation {
  import opened Results
  import opened UvGeometry
  import opened RealizedWindow

  /** The anchor index and position, and the estimate written back through the
      `ref` parameter (unchanged unless the index had to be estimated). */
  datatype Anchor = Anchor(index: int, position: Uv, estimate: Uv)

  /** A position with the estimate written back through the `ref` parameter. */
  datatype Estimated = Estimated(position: Uv, estimate: Uv)

  /** The viewport starts at the origin, up to Avalonia's epsilon. */
  predicate AtOrigin(p: Uv)
    requires p.Uv?
  {
    IsZero(p.u) && IsZero(p.v)
  }

  /** An element at `position` with the tracked `size` ends strictly inside
      the viewport's V range. A NaN position or size never does. */
  predicate EndsInside(position: Uv, size: Uv, vStart: real, vEnd: real) {
    position.Uv? && size.Uv? && vStart < position.v + size.v < vEnd
  }

  /** Slot `i` is the first recorded position that ends inside the viewport,
      with no NaN position before it. */
  predicate FirstHit(positions: seq<Uv>, size: Uv, vStart: real, vEnd: real, i: int) {
    && 0 <= i < |positions|
    && EndsInside(positions[i], size, vStart, vEnd)
    && forall j :: 0 <= j < i ==> positions[j].Uv? && !EndsInside(positions[j], size, vStart, vEnd)
  }

  /** The scan over recorded positions from slot `i` on: stops at the first
      NaN position, returns the first slot that ends inside the viewport. */
  function Scan(positions: seq<Uv>, size: Uv, vStart: real, vEnd: real, i: nat): (r: Option<nat>)
    requires i <= |positions|
    requires forall j :: 0 <= j < i ==> positions[j].Uv? && !EndsInside(positions[j], size, vStart, vEnd)
    ensures r.Some? ==> FirstHit(positions, size, vStart, vEnd, r.value)
    ensures r.None? ==> forall k :: !FirstHit(positions, size, vStart, vEnd, k)
    decreases |positions| - i
  {
    if i == |positions| then None
    else if positions[i].NaN? then None
    else if EndsInside(positions[i], size, vStart, vEnd) then Some(i)
    else Scan(positions, size, vStart, vEnd, i + 1)
  }

  /** The element size to estimate with: the tracked size when known, else
      the caller's estimate; a size with a zero component is replaced by 1x1
      so that it can be divided by. */
  function EstimatedSize<E>(w: Window<E>, estimate: Uv): (r: Uv)
    requires estimate.Uv?
    ensures r.Uv? && r.u != 0.0 && r.v != 0.0
    ensures w.size.Uv? && w.size.u != 0.0 && w.size.v != 0.0 ==> r == w.size
    ensures w.size.NaN? && estimate.u != 0.0 && estimate.v != 0.0 ==> r == estimate
    ensures w.size.Uv? && (w.size.u == 0.0 || w.size.v == 0.0) ==> r == Uv(1.0, 1.0)
    ensures w.size.NaN? && (estimate.u == 0.0 || estimate.v == 0.0) ==> r == Uv(1.0, 1.0)
  {
    var size := match EstimateElementSize(w) case None => estimate case Some(s) => s;
    if size.u == 0.0 || size.v == 0.0 then Uv(1.0, 1.0) else size
  }

  /** How many whole elements of extent `elementU` fit on a line of extent
      `viewportU`. */
  function PerLine(viewportU: real, elementU: real): int
    requires elementU != 0.0
  {
    Trunc(viewportU / elementU)
  }

  /** The length along U of a line holding as many whole elements of extent
      `elementU` as fit in `viewportU`. */
  function LineLength(viewportU: real, elementU: real): real
    requires elementU != 0.0
  {
    PerLine(viewportU, elementU) as real * elementU
  }

  /** The place of a U offset when the U axis is folded into lines of length
      `lineLength`: the offset's remainder along the line, and along V the
      truncated offset divided by the line length, times `elementV`. Only the
      offset is truncated, not the quotient, so V is a fraction of a line
      rather than a whole line number. */
  function OnGrid(offset: real, lineLength: real, elementV: real): (r: Uv)
    requires lineLength != 0.0
    ensures r.Uv?
  {
    Uv(FMod(offset, lineLength), Trunc(offset) as real / lineLength * elementV)
  }

  /** The grid position of element `index` when every element has the size
      `estimate` and a line holds as many whole elements as fit in
      `viewportEnd.U`. NaN when the estimate or the viewport is NaN, or no
      element fits on a line (the double arithmetic yields NaN there). */
  function GetPosition(index: int, estimate: Uv, viewportEnd: Uv): (r: Uv)
    ensures r.NaN? <==>
      estimate.NaN? || viewportEnd.NaN? || estimate.u == 0.0 || LineLength(viewportEnd.u, estimate.u) == 0.0
    ensures r.Uv? ==>
      r == OnGrid(index as real * estimate.u, LineLength(viewportEnd.u, estimate.u), estimate.v)
  {
    if estimate.NaN? || viewportEnd.NaN? || estimate.u == 0.0 then NaN
    else
      var maxULength := LineLength(viewportEnd.u, estimate.u);
      if maxULength == 0.0 then NaN
      else OnGrid(index as real * estimate.u, maxULength, estimate.v)
  }

  /** With a positive estimate that fits on a line, a non-negative index is
      placed on a line: its U lies within `[0, viewportEnd.U)` and its V is
      non-negative. */
  lemma GetPositionWithinLine(index: int, estimate: Uv, viewportEnd: Uv)
    requires 0 <= index && estimate.Uv? && viewportEnd.Uv?
    requires 0.0 < estimate.u <= viewportEnd.u && 0.0 <= estimate.v
    ensures var p := GetPosition(index, estimate, viewportEnd);
      p.Uv? && 0.0 <= p.u < viewportEnd.u && 0.0 <= p.v
  {
    var maxULength := LineLength(viewportEnd.u, estimate.u);
    var offset := index as real * estimate.u;
    assert 0.0 < maxULength <= viewportEnd.u by {
      LineLengthBounds(viewportEnd.u, estimate.u);
    }
    assert 0.0 <= offset by {
      ProductNonNegative(index as real, estimate.u);
    }
    GetPositionIsOnGrid(index, estimate, viewportEnd);
    OnGridBounds(offset, maxULength, viewportEnd.u, estimate.v);
  }

  /** Off the NaN cases, an index is placed on the grid. */
  lemma GetPositionIsOnGrid(index: int, estimate: Uv, viewportEnd: Uv)
    requires estimate.Uv? && viewportEnd.Uv? && estimate.u != 0.0
    requires LineLength(viewportEnd.u, estimate.u) != 0.0
    ensures GetPosition(index, estimate, viewportEnd) ==
      OnGrid(index as real * estimate.u, LineLength(viewportEnd.u, estimate.u), estimate.v)
  {
  }

  /** As written, V is a fraction of a line: with 30-wide elements on a
      100-wide viewport (three to a line), the second element of the first
      line is placed a third of a line down, while the first element of the
      second line is placed a whole line down. */
  lemma GetPositionVIsLineFraction()
    ensures GetPosition(1, Uv(30.0, 10.0), Uv(100.0, 0.0)) == Uv(30.0, 10.0 / 3.0)
    ensures GetPosition(3, Uv(30.0, 10.0), Uv(100.0, 0.0)) == Uv(0.0, 10.0)
  {
    assert PerLine(100.0, 30.0) == 3 by {
      assert 3.0 <= 100.0 / 30.0 < 4.0;
    }
    assert Trunc(30.0) == 30 && Trunc(90.0) == 90;
    assert Trunc(30.0 / 90.0) == 0 && Trunc(90.0 / 90.0) == 1;
  }

  /** The length of a line of whole elements lies between one element and
      the viewport's extent along U. */
  lemma LineLengthBounds(viewportU: real, elementU: real)
    requires 0.0 < elementU <= viewportU
    ensures elementU <= LineLength(viewportU, elementU) <= viewportU
  {
    var x := viewportU / elementU;
    assert elementU * x == viewportU;
    assert x >= 1.0;
    var lineCount := Trunc(x) as real;
    assert 1.0 <= lineCount <= x;
    var extra := lineCount - 1.0;
    assert 0.0 <= extra * elementU;
    assert lineCount * elementU == extra * elementU + elementU;
    assert lineCount * elementU <= x * elementU;
  }

  /** The product of two non-negative reals is non-negative. */
  lemma ProductNonNegative(a: real, b: real)
    requires 0.0 <= a && 0.0 <= b
    ensures 0.0 <= a * b
  {
  }

  /** A non-negative offset folded into lines of positive length no longer
      than the viewport lands inside the viewport along U, on a line at a
      non-negative V. */
  lemma OnGridBounds(offset: real, maxULength: real, viewportU: real, ev: real)
    requires 0.0 <= offset && 0.0 < maxULength <= viewportU && 0.0 <= ev
    ensures var p := OnGrid(offset, maxULength, ev);
      0.0 <= p.u < viewportU && 0.0 <= p.v
  {
    ColumnBounds(offset, maxULength, viewportU);
    RowNonNegative(offset, maxULength, ev);
  }

  /** A non-negative offset taken modulo a positive line length no longer
      than the viewport lands inside the viewport. */
  lemma ColumnBounds(offset: real, maxULength: real, viewportU: real)
    requires 0.0 <= offset && 0.0 < maxULength <= viewportU
    ensures 0.0 <= FMod(offset, maxULength) < viewportU
  {
    FModBounds(offset, maxULength);
  }

  /** The line of a non-negative offset lies at a non-negative V. */
  lemma RowNonNegative(offset: real, maxULength: real, ev: real)
    requires 0.0 <= offset && 0.0 < maxULength && 0.0 <= ev
    ensures 0.0 <= Trunc(offset) as real / maxULength * ev
  {
    var rows := Trunc(offset) as real / maxULength;
    assert 0.0 <= rows;
  }

  /** The anchor for a layout pass: index -1 without items; index 0 at the
      origin when the viewport starts there; otherwise the first recorded
      position that ends inside the viewport (when the start is trusted); and
      failing that an index estimated on the grid, capped at the last item,
      with the estimate used written back. */
  function GetOrEstimateAnchorElementForViewport<E>(
    w: Window<E>, viewportStart: Uv, viewportEnd: Uv, itemCount: int, estimate: Uv): (r: Anchor)
    requires Valid(w) && viewportStart.Uv? && viewportEnd.Uv? && estimate.Uv?
    ensures itemCount <= 0 ==> r == Anchor(-1, Zero, estimate)
    ensures itemCount > 0 && AtOrigin(viewportStart) ==> r == Anchor(0, Zero, estimate)
    ensures itemCount > 0 && !AtOrigin(viewportStart) && !w.startUnstable ==>
      forall i :: FirstHit(w.positions, w.size, viewportStart.v, viewportEnd.v, i) ==>
        r == Anchor(FirstIndex(w) + i, w.positions[i], estimate)
    ensures (&& itemCount > 0 && !AtOrigin(viewportStart)
             && (w.startUnstable || forall i :: !FirstHit(w.positions, w.size, viewportStart.v, viewportEnd.v, i))) ==>
      && r.index <= itemCount - 1
      && r.estimate.Uv? && r.estimate.u != 0.0 && r.estimate.v != 0.0
      && (w.size.Uv? && w.size.u != 0.0 && w.size.v != 0.0 ==> r.estimate == w.size)
      && r.estimate == EstimatedSize(w, estimate)
      && r.index == Min(GridIndex(viewportStart, viewportEnd, r.estimate), itemCount - 1)
      && r.position == GetPosition(r.index, r.estimate, viewportEnd)
  {
    if itemCount <= 0 then Anchor(-1, Zero, estimate)
    else if AtOrigin(viewportStart) then Anchor(0, Zero, estimate)
    else
      var hit := if w.startUnstable then None
                 else Scan(w.positions, w.size, viewportStart.v, viewportEnd.v, 0);
      if hit.Some? then
        FirstHitUnique(w.positions, w.size, viewportStart.v, viewportEnd.v, hit.value);
        Anchor(FirstIndex(w) + hit.value, w.positions[hit.value], estimate)
      else
        var size := EstimatedSize(w, estimate);
        var index := Min(
          Trunc(viewportStart.v / size.v) * Trunc(viewportEnd.u / size.u) + Trunc(viewportStart.u / size.u),
          itemCount - 1);
        assert index == Min(GridIndex(viewportStart, viewportEnd, size), itemCount - 1);
        Anchor(index, GetPosition(index, size, viewportEnd), size)
  }

  /** The item a viewport start falls on when every element has the extent
      `size`: its row along V times the elements per line, plus its column
      along U. */
  function GridIndex(viewportStart: Uv, viewportEnd: Uv, size: Uv): int
    requires viewportStart.Uv? && viewportEnd.Uv? && size.Uv? && size.u != 0.0 && size.v != 0.0
  {
    Trunc(viewportStart.v / size.v) * PerLine(viewportEnd.u, size.u) + Trunc(viewportStart.u / size.u)
  }

  /** At most one slot is the first hit. */
  lemma FirstHitUnique(positions: seq<Uv>, size: Uv, vStart: real, vEnd: real, i: int)
    requires FirstHit(positions, size, vStart, vEnd, i)
    ensures forall k :: FirstHit(positions, size, vStart, vEnd, k) ==> k == i
  {
  }

  /** With a viewport in the positive quadrant and a positive estimate, an
      estimated anchor is a real item index, placed on a line of the grid. */
  lemma EstimatedAnchorInRange<E>(w: Window<E>, viewportStart: Uv, viewportEnd: Uv, itemCount: int, estimate: Uv)
    requires Valid(w) && viewportStart.Uv? && viewportEnd.Uv? && estimate.Uv?
    requires 0 < itemCount && !AtOrigin(viewportStart)
    requires w.startUnstable || forall i :: !FirstHit(w.positions, w.size, viewportStart.v, viewportEnd.v, i)
    requires 0.0 <= viewportStart.u && 0.0 <= viewportStart.v && 0.0 <= viewportEnd.u
    ensures var r := GetOrEstimateAnchorElementForViewport(w, viewportStart, viewportEnd, itemCount, estimate);
      r.estimate.u > 0.0 && r.estimate.v > 0.0 ==>
        && 0 <= r.index <= itemCount - 1
        && (r.estimate.u <= viewportEnd.u ==>
              r.position.Uv? && 0.0 <= r.position.u < viewportEnd.u && 0.0 <= r.position.v)
  {
    var r := GetOrEstimateAnchorElementForViewport(w, viewportStart, viewportEnd, itemCount, estimate);
    var size := r.estimate;
    if size.u > 0.0 && size.v > 0.0 {
      var rows := Trunc(viewportStart.v / size.v);
      var perLine := PerLine(viewportEnd.u, size.u);
      var column := Trunc(viewportStart.u / size.u);
      assert 0 <= rows && 0 <= perLine && 0 <= column;
      assert r.index == Min(rows * perLine + column, itemCount - 1);
      GridIndexInRange(rows, perLine, column, itemCount);
      if size.u <= viewportEnd.u {
        GetPositionWithinLine(r.index, size, viewportEnd);
      }
    }
  }

  /** The estimated anchor is the item at the viewport start's row and
      column: when that column exists on a line and the item is not capped,
      dividing the index by the elements per line gives back the row and
      the column. */
  lemma EstimatedAnchorOnGrid<E>(w: Window<E>, viewportStart: Uv, viewportEnd: Uv, itemCount: int, estimate: Uv)
    requires Valid(w) && viewportStart.Uv? && viewportEnd.Uv? && estimate.Uv?
    requires 0 < itemCount && !AtOrigin(viewportStart)
    requires w.startUnstable || forall i :: !FirstHit(w.positions, w.size, viewportStart.v, viewportEnd.v, i)
    requires 0.0 <= viewportStart.u && 0.0 <= viewportStart.v
    ensures var r := GetOrEstimateAnchorElementForViewport(w, viewportStart, viewportEnd, itemCount, estimate);
      var row := Trunc(viewportStart.v / r.estimate.v);
      var column := Trunc(viewportStart.u / r.estimate.u);
      var perLine := PerLine(viewportEnd.u, r.estimate.u);
      0.0 < r.estimate.u && 0.0 < r.estimate.v && column < perLine && row * perLine + column < itemCount ==>
        r.index / perLine == row && r.index % perLine == column
  {
    var r := GetOrEstimateAnchorElementForViewport(w, viewportStart, viewportEnd, itemCount, estimate);
    var size := r.estimate;
    var row := Trunc(viewportStart.v / size.v);
    var column := Trunc(viewportStart.u / size.u);
    var perLine := PerLine(viewportEnd.u, size.u);
    if 0.0 < size.u && 0.0 < size.v && column < perLine && row * perLine + column < itemCount {
      assert 0 <= row && 0 <= column;
      assert r.index == row * perLine + column;
      GridDecomposes(row, perLine, column);
    }
  }

  /** A grid index splits back into its row and column. */
  lemma GridDecomposes(row: int, perLine: int, column: int)
    requires 0 <= row && 0 <= column < perLine
    ensures (row * perLine + column) / perLine == row && (row * perLine + column) % perLine == column
  {
    var x := row * perLine + column;
    var q, m := x / perLine, x % perLine;
    assert x == q * perLine + m && 0 <= m < perLine;
    assert (q - row) * perLine == q * perLine - row * perLine;
    MultipleBounds(q - row, perLine);
    assert q == row;
  }

  /** A non-zero multiple of a positive number is at least that number away
      from zero. */
  lemma MultipleBounds(d: int, n: int)
    requires 0 < n
    ensures d >= 1 ==> d * n >= n
    ensures d <= -1 ==> d * n <= -n
  {
    if d >= 1 {
      assert d * n == (d - 1) * n + n;
      assert (d - 1) * n >= 0;
    }
    if d <= -1 {
      assert d * n == -((-d - 1) * n) - n;
      assert (-d - 1) * n >= 0;
    }
  }

  /** A tracker whose recorded size has a zero component (a freshly
      constructed, reset or fully recycled one records (0, 0), not an unknown
      size) estimates with 1x1 and writes that back, discarding the caller's
      estimate. */
  lemma ZeroSizeOverridesEstimate<E>(w: Window<E>, viewportStart: Uv, viewportEnd: Uv, itemCount: int, estimate: Uv)
    requires Valid(w) && viewportStart.Uv? && viewportEnd.Uv? && estimate.Uv?
    requires 0 < itemCount && !AtOrigin(viewportStart)
    requires w.startUnstable || forall i :: !FirstHit(w.positions, w.size, viewportStart.v, viewportEnd.v, i)
    requires w.size.Uv? && (w.size.u == 0.0 || w.size.v == 0.0)
    ensures GetOrEstimateAnchorElementForViewport(w, viewportStart, viewportEnd, itemCount, estimate).estimate ==
      Uv(1.0, 1.0)
  {
    assert EstimatedSize(w, estimate) == Uv(1.0, 1.0);
  }

  /** On a freshly constructed tracker, a caller's estimate of 50x20 would
      put the anchor at item 102, but the tracker estimates with 1x1 and
      lands on the last of 10000 items instead. */
  lemma FreshTrackerDiscardsEstimate()
    ensures GridIndex(Uv(100.0, 200.0), Uv(500.0, 1000.0), Uv(50.0, 20.0)) == 102
    ensures var r := GetOrEstimateAnchorElementForViewport(
      Empty<int>(), Uv(100.0, 200.0), Uv(500.0, 1000.0), 10000, Uv(50.0, 20.0));
      r.estimate == Uv(1.0, 1.0) && r.index == 9999
  {
    var w := Empty<int>();
    assert Trunc(200.0 / 20.0) == 10 && PerLine(500.0, 50.0) == 10 && Trunc(100.0 / 50.0) == 2;
    assert !AtOrigin(Uv(100.0, 200.0));
    ZeroSizeOverridesEstimate(w, Uv(100.0, 200.0), Uv(500.0, 1000.0), 10000, Uv(50.0, 20.0));
    assert Trunc(200.0 / 1.0) == 200 && PerLine(500.0, 1.0) == 500 && Trunc(100.0 / 1.0) == 100;
  }

  /** An item index computed from non-negative grid coordinates and clamped
      to the last item lies within the items. */
  lemma GridIndexInRange(rows: int, perLine: int, column: int, itemCount: int)
    requires 0 <= rows && 0 <= perLine && 0 <= column && 0 < itemCount
    ensures 0 <= Min(rows * perLine + column, itemCount - 1) <= itemCount - 1
  {
  }

  /** The position of element `index`: its recorded position when the lookup
      finds one (the lookup's exception propagates), else its grid position
      under the tracked size, or the caller's estimate when the size is
      unknown, which is also written back. */
  function GetOrEstimateElementUv<E>(w: Window<E>, index: int, estimate: Uv, viewportEnd: Uv): (r: Result<Estimated>)
    requires Valid(w)
    ensures r.Err? <==> GetElementUv(w, index).Err?
    ensures GetElementUv(w, index).Ok? && GetElementUv(w, index).value.Some? ==>
      r == Ok(Estimated(GetElementUv(w, index).value.value, estimate))
    ensures GetElementUv(w, index) == Ok(None) ==>
      && r.Ok?
      && r.value.estimate == (if w.size.NaN? then estimate else w.size)
      && r.value.position == GetPosition(index, r.value.estimate, viewportEnd)
  {
    match GetElementUv(w, index)
    case Err(e) => Err(e)
    case Ok(Some(uv)) => Ok(Estimated(uv, estimate))
    case Ok(None) =>
      var size := match EstimateElementSize(w) case None => estimate case Some(s) => s;
      Ok(Estimated(GetPosition(index, size, viewportEnd), size))
  }
}

=== FILE: geometry.dfy ===
/**
 * UV-space sizes and positions, and the few pieces of .NET arithmetic the
 * tracker relies on (`Math.Max`/`Math.Min`, the `(int)` cast, `%` on doubles),
 * with doubles stated over the reals.
 *
 * U is the axis along which elements wrap, V the axis along which lines stack.
 */
module UvGeometry {

  /** A size or position in UV space, or the "not a number" sentinel that marks
      an unknown size or a placeholder slot's unknown position. A value with
      either component NaN is `NaN` here. */
  datatype Uv = Uv(u: real, v: real) | NaN

  /** The default (zero) size or position of an orientation. */
  const Zero: Uv := Uv(0.0, 0.0)

  /** The double-precision machine epsilon Avalonia's `MathUtilities` uses. */
  const DoubleEpsilon: real := 0.00000000000000022204460492503131

  /** Avalonia's `MathUtilities.IsZero`: closer to zero than ten epsilons. */
  predicate IsZero(x: real) {
    -10.0 * DoubleEpsilon < x < 10.0 * DoubleEpsilon
  }

  /** `Math.Max` on integers. */
  function Max(a: int, b: int): (r: int)
    ensures r >= a && r >= b && (r == a || r == b)
  {
    if a >= b then a else b
  }

  /** `Math.Min` on integers. */
  function Min(a: int, b: int): (r: int)
    ensures r <= a && r <= b && (r == a || r == b)
  {
    if a <= b then a else b
  }

  /** A C# `(int)` cast of a double: rounds toward zero. */
  function Trunc(x: real): (r: int)
    ensures 0.0 <= x ==> 0 <= r && r as real <= x < r as real + 1.0
    ensures x < 0.0 ==> r <= 0 && r as real - 1.0 < x <= r as real
  {
    if x >= 0.0 then x.Floor else -((-x).Floor)
  }

  /** The C# `%` operator on doubles (IEEE remainder by truncated quotient);
      a zero divisor yields NaN, which the callers handle before calling this. */
  function FMod(a: real, b: real): real
    requires b != 0.0
  {
    a - b * Trunc(a / b) as real
  }

  /** The remainder of a non-negative dividend by a positive divisor lies in
      `[0, b)`. */
  lemma FModBounds(a: real, b: real)
    requires 0.0 <= a && 0.0 < b
    ensures 0.0 <= FMod(a, b) < b
  {
    var x := a / b;
    var q := Trunc(x) as real;
    var q1 := q + 1.0;
    assert q <= x < q1;
    assert a == b * x;
    assert b * q <= b * x < b * q1;
    assert b * q1 == b * q + b;
    var bq := b * q;
    assert a < bq + b;
    var r := FMod(a, b);
    assert r == a - bq;
    assert r < b;
  }
}

=== FILE: recycling.dfy ===
/**
 * Trimming the window to the part the viewport needs, and releasing it whole.
 */
module Recycling {
  import opened Results
  import opened UvGeometry
  import opened Traces
  import opened RealizedWindow
  import opened CollectionChanges

  /** The window after a trim, with the `recycleElement(element, index)` calls
      it made, in order. */
  datatype Trim<E> = Trim(window: Window<E>, recycled: seq<Recycled<E>>)

  /** Recycles every slot, each realized element reported with its source
      index, and clears the window. An empty window is left as it is. */
  function RecycleAllElements<E>(w: Window<E>): (r: Trim<E>)
    requires Valid(w)
    ensures Valid(r.window) && Count(r.window) == 0 && FirstIndex(r.window) == -1
    ensures r.window.startUnstable == w.startUnstable
    ensures Count(w) == 0 ==> r == Trim(w, [])
    ensures Count(w) > 0 ==> EstimateElementSize(r.window) == Some(Zero) && r.window.startUv == Zero
  {
    if Count(w) == 0 then Trim(w, [])
    else Trim(Cleared(w), Numbered(w.elements, FirstIndex(w)))
  }

  /** Recycles the slots before source index `index`, which becomes the first
      index. Does nothing when `index` is at or before the first index; clears
      the whole window when it lies past the last one. */
  function RecycleElementsBefore<E>(w: Window<E>, index: int): (r: Trim<E>)
    requires Valid(w)
    ensures Valid(r.window)
    ensures Count(w) == 0 || index <= FirstIndex(w) ==> r == Trim(w, [])
    ensures Count(w) > 0 && index > LastIndex(w) ==> r == RecycleAllElements(w)
    ensures Count(w) > 0 && FirstIndex(w) < index <= LastIndex(w) ==>
      && FirstIndex(r.window) == index
      && LastIndex(r.window) == LastIndex(w)
      && r.window.positions == w.positions[index - FirstIndex(w)..]
      && r.window.size == w.size && r.window.startUv == w.startUv
      && r.window.startUnstable == w.startUnstable
  {
    if index <= FirstIndex(w) || Count(w) == 0 then Trim(w, [])
    else if index > LastIndex(w) then RecycleAllElements(w)
    else
      var endIndex := index - FirstIndex(w);
      Trim(w.(elements := w.elements[endIndex..], positions := w.positions[endIndex..], firstIndex := index),
           Numbered(w.elements[..endIndex], FirstIndex(w)))
  }

  /** Recycles the slots after source index `index`, which becomes the last
      index. Does nothing when `index` is at or past the last index; clears
      the whole window when it lies before the first one. */
  function RecycleElementsAfter<E>(w: Window<E>, index: int): (r: Trim<E>)
    requires Valid(w)
    ensures Valid(r.window)
    ensures Count(w) == 0 || index >= LastIndex(w) ==> r == Trim(w, [])
    ensures Count(w) > 0 && index < FirstIndex(w) ==> r == RecycleAllElements(w)
    ensures Count(w) > 0 && FirstIndex(w) <= index < LastIndex(w) ==>
      && FirstIndex(r.window) == FirstIndex(w)
      && LastIndex(r.window) == index
      && r.window.positions == w.positions[..index + 1 - FirstIndex(w)]
      && r.window.size == w.size && r.window.startUv == w.startUv
      && r.window.startUnstable == w.startUnstable
  {
    if index >= LastIndex(w) || Count(w) == 0 then Trim(w, [])
    else if index < FirstIndex(w) then RecycleAllElements(w)
    else
      var startIndex := index + 1 - FirstIndex(w);
      Trim(w.(elements := w.elements[..startIndex], positions := w.positions[..startIndex]),
           Numbered(w.elements[startIndex..], FirstIndex(w) + startIndex))
  }

  /** Clears the bookkeeping for reuse with another source collection, without
      recycling (the caller has already released the elements). The result is
      indistinguishable from a freshly constructed tracker. */
  function ResetForReuse<E>(w: Window<E>): (r: Window<E>)
    ensures r == Empty()
  {
    w.(elements := [], positions := [], firstIndex := 0, size := Zero, startUv := Zero,
       startUnstable := false)
  }

  /** Releasing everything reports each realized element once, with the
      source index it was realized for, in increasing index order. */
  lemma RecycleAllElementsReports<E>(w: Window<E>, ev: Recycled<E>)
    requires Valid(w)
    ensures ev in RecycleAllElements(w).recycled <==> GetElement(w, ev.index) == Some(ev.elem)
    ensures var t := RecycleAllElements(w).recycled;
      forall i, j :: 0 <= i < j < |t| ==> t[i].index < t[j].index
  {
    if Count(w) > 0 {
      NumberedMembership(w.elements, FirstIndex(w), ev);
      NumberedIncreasing(w.elements, FirstIndex(w));
    }
  }

  /** Trimming the front keeps exactly the source indices from `index` on;
      every earlier index is no longer realized. */
  lemma RecycleElementsBeforeKeeps<E>(w: Window<E>, index: int, s: int)
    requires Valid(w)
    ensures GetElement(RecycleElementsBefore(w, index).window, s) ==
      if s >= index then GetElement(w, s) else None
  {
    var w' := RecycleElementsBefore(w, index).window;
    if Count(w) > 0 && FirstIndex(w) < index <= LastIndex(w) && index <= s <= LastIndex(w) {
      var endIndex := index - FirstIndex(w);
      assert w'.elements[s - index] == w.elements[s - FirstIndex(w)];
    }
  }

  /** Trimming the front reports exactly the realized elements before `index`,
      each with its source index, in increasing index order. */
  lemma RecycleElementsBeforeReports<E>(w: Window<E>, index: int, ev: Recycled<E>)
    requires Valid(w)
    ensures ev in RecycleElementsBefore(w, index).recycled <==>
      ev.index < index && GetElement(w, ev.index) == Some(ev.elem)
    ensures var t := RecycleElementsBefore(w, index).recycled;
      forall i, j :: 0 <= i < j < |t| ==> t[i].index < t[j].index
  {
    if Count(w) > 0 && index > FirstIndex(w) {
      if index > LastIndex(w) {
        RecycleAllElementsReports(w, ev);
      } else {
        var endIndex := index - FirstIndex(w);
        NumberedMembership(w.elements[..endIndex], FirstIndex(w), ev);
        NumberedIncreasing(w.elements[..endIndex], FirstIndex(w));
      }
    }
  }

  /** Trimming the back keeps exactly the source indices up to `index`;
      every later index is no longer realized. */
  lemma RecycleElementsAfterKeeps<E>(w: Window<E>, index: int, s: int)
    requires Valid(w)
    ensures GetElement(RecycleElementsAfter(w, index).window, s) ==
      if s <= index then GetElement(w, s) else None
  {
  }

  /** Trimming the back reports exactly the realized elements after `index`,
      each with its source index, in increasing index order. */
  lemma RecycleElementsAfterReports<E>(w: Window<E>, index: int, ev: Recycled<E>)
    requires Valid(w)
    ensures ev in RecycleElementsAfter(w, index).recycled <==>
      ev.index > index && GetElement(w, ev.index) == Some(ev.elem)
    ensures var t := RecycleElementsAfter(w, index).recycled;
      forall i, j :: 0 <= i < j < |t| ==> t[i].index < t[j].index
  {
    if Count(w) > 0 && index < LastIndex(w) {
      if index < FirstIndex(w) {
        RecycleAllElementsReports(w, ev);
      } else {
        var startIndex := index + 1 - FirstIndex(w);
        var t := RecycleElementsAfter(w, index).recycled;
        assert t == Numbered(w.elements[startIndex..], FirstIndex(w) + startIndex);
        NumberedTail(w, startIndex, ev);
        NumberedIncreasing(w.elements[startIndex..], FirstIndex(w) + startIndex);
      }
    }
  }

  /** Walking a window's slots from `lo` on hands over the elements realized
      there under their source indices. */
  lemma NumberedTail<E>(w: Window<E>, lo: int, ev: Recycled<E>)
    requires 0 <= lo <= Count(w)
    ensures ev in Numbered(w.elements[lo..], FirstIndex(w) + lo) <==>
      FirstIndex(w) + lo <= ev.index && GetElement(w, ev.index) == Some(ev.elem)
  {
    NumberedMembership(w.elements[lo..], FirstIndex(w) + lo, ev);
  }
}

=== FILE: results.dfy ===
/** Optional values and the exceptions the realized-element tracker can throw. */
module Results {

  /** A nullable reference or nullable struct: `None` plays the part of `null`. */
  datatype Option<+T> = None | Some(value: T)

  /** The exceptions the tracker throws on a caller's contract violation. */
  datatype Error =
    | ArgumentOutOfRange   // a negative source index, or a list index past the end
    | NotSupported         // `Add` at an index that is not adjacent to the window

  /** Either the value an operation returns or the exception it throws. */
  datatype Result<+T> = Ok(value: T) | Err(error: Error)
}

=== FILE: traces.dfy ===
/**
 * The callbacks the tracker invokes, recorded as traces.
 *
 * The tracker hands elements to panel-supplied delegates while it walks its
 * slots; here each walk returns the sequence of calls it would have made, in
 * order, so that properties can be stated over them.
 */
module Traces {
  import opened Results

  /** One call of `updateElementIndex(element, oldIndex, newIndex)`. */
  datatype Reindex<E> = Reindex(elem: E, oldIndex: int, newIndex: int)

  /** One call of a recycle delegate that is also told the element's index. */
  datatype Recycled<E> = Recycled(elem: E, index: int)

  /** The elements held by the non-empty slots, in slot order: the calls of a
      walk that hands every realized element to `recycleElement(element)`. */
  function Present<E>(slots: seq<Option<E>>): (r: seq<E>)
    ensures |r| <= |slots|
  {
    if |slots| == 0 then []
    else
      var rest := Present(slots[1..]);
      match slots[0]
      case Some(e) => [e] + rest
      case None => rest
  }

  /** The walk of `recycleElement(element, index)` over `slots`, where the slot
      at offset `k` stands for source index `n + k`. */
  function Numbered<E>(slots: seq<Option<E>>, n: int): (r: seq<Recycled<E>>)
    ensures |r| <= |slots|
  {
    if |slots| == 0 then []
    else
      var rest := Numbered(slots[1..], n + 1);
      match slots[0]
      case Some(e) => [Recycled(e, n)] + rest
      case None => rest
  }

  /** The walk of `updateElementIndex(element, newIndex + delta, newIndex)`
      over `slots`, where the counter `newIndex` starts at `n` and is advanced
      once per slot, empty or not. */
  function Reindexed<E>(slots: seq<Option<E>>, n: int, delta: int): (r: seq<Reindex<E>>)
    ensures |r| <= |slots|
  {
    if |slots| == 0 then []
    else
      var rest := Reindexed(slots[1..], n + 1, delta);
      match slots[0]
      case Some(e) => [Reindex(e, n + delta, n)] + rest
      case None => rest
  }

  /** Every element of a walk is handed over exactly as often as a slot holds
      it: nothing is recycled twice and nothing is skipped. */
  lemma {:induction false} PresentMultiplicity<E>(slots: seq<Option<E>>)
    ensures forall x :: multiset(Present(slots))[x] == multiset(slots)[Some(x)]
  {
    if |slots| > 0 {
      var rest := slots[1..];
      PresentMultiplicity(rest);
      assert slots == [slots[0]] + rest;
      assert multiset(slots) == multiset([slots[0]]) + multiset(rest);
      assert multiset(Present(slots)) ==
        (if slots[0].Some? then multiset{slots[0].value} else multiset{}) + multiset(Present(rest));
    }
  }

  /** An element is handed over if and only if some slot holds it. */
  lemma PresentMembership<E>(slots: seq<Option<E>>)
    ensures forall x :: x in Present(slots) <==> Some(x) in slots
    ensures forall j :: 0 <= j < |Present(slots)| ==> Some(Present(slots)[j]) in slots
    ensures forall j :: 0 <= j < |slots| && slots[j].Some? ==> slots[j].value in Present(slots)
  {
    PresentMultiplicity(slots);
    forall x
      ensures x in Present(slots) <==> Some(x) in slots
    {
      assert x in multiset(Present(slots)) <==> Some(x) in multiset(slots);
    }
    forall j | 0 <= j < |Present(slots)|
      ensures Some(Present(slots)[j]) in slots
    {
      assert Present(slots)[j] in Present(slots);
    }
    forall j | 0 <= j < |slots| && slots[j].Some?
      ensures slots[j].value in Present(slots)
    {
      assert Some(slots[j].value) in slots;
    }
  }

  /** A recycle call reports exactly the element held at the slot its index
      stands for. */
  lemma {:induction false} NumberedMembership<E>(slots: seq<Option<E>>, n: int, ev: Recycled<E>)
    ensures ev in Numbered(slots, n) <==>
      n <= ev.index < n + |slots| && slots[ev.index - n] == Some(ev.elem)
  {
    if |slots| > 0 {
      NumberedMembership(slots[1..], n + 1, ev);
    }
  }

  /** The reported indices strictly increase, so no slot is reported twice. */
  lemma {:induction false} NumberedIncreasing<E>(slots: seq<Option<E>>, n: int)
    ensures forall i, j :: 0 <= i < j < |Numbered(slots, n)| ==>
      Numbered(slots, n)[i].index < Numbered(slots, n)[j].index
  {
    if |slots| > 0 {
      var tail := slots[1..];
      var rest := Numbered(tail, n + 1);
      NumberedIncreasing(tail, n + 1);
      forall k | 0 <= k < |rest|
        ensures rest[k].index >= n + 1
      {
        NumberedMembership(tail, n + 1, rest[k]);
      }
    }
  }

  /** A reindex call reports the element held at the slot its new index stands
      for, with the old index offset from the new one by `delta`. */
  lemma {:induction false} ReindexedMembership<E>(slots: seq<Option<E>>, n: int, delta: int, ev: Reindex<E>)
    ensures ev in Reindexed(slots, n, delta) <==>
      n <= ev.newIndex < n + |slots| && slots[ev.newIndex - n] == Some(ev.elem)
      && ev.oldIndex == ev.newIndex + delta
  {
    if |slots| > 0 {
      ReindexedMembership(slots[1..], n + 1, delta, ev);
    }
  }

  /** Walking the slots from `lo` on, numbered as in the whole sequence. */
  lemma ReindexedSuffix<E>(slots: seq<Option<E>>, lo: nat, n: int, delta: int, ev: Reindex<E>)
    requires lo <= |slots|
    ensures ev in Reindexed(slots[lo..], n + lo, delta) <==>
      n + lo <= ev.newIndex < n + |slots| && slots[ev.newIndex - n] == Some(ev.elem)
      && ev.oldIndex == ev.newIndex + delta
  {
    ReindexedMembership(slots[lo..], n + lo, delta, ev);
    if n + lo <= ev.newIndex < n + |slots| {
      assert slots[lo..][ev.newIndex - (n + lo)] == slots[ev.newIndex - n];
    }
  }

  /** One reindex call per non-empty slot. */
  lemma {:induction false} ReindexedLength<E>(slots: seq<Option<E>>, n: int, delta: int)
    ensures |Reindexed(slots, n, delta)| == |Present(slots)|
  {
    if |slots| > 0 {
      ReindexedLength(slots[1..], n + 1, delta);
    }
  }
}

=== FILE: window.dfy ===
/**
 * The realized-element window of a virtualizing wrap panel: a run of slots,
 * contiguous in source-collection index space, each holding a realized element
 * or a placeholder, together with each slot's UV position.
 */
module RealizedWindow {
  import opened Results
  import opened UvGeometry

  /** The tracker's state. `elements` and `positions` are parallel; slot `k`
      stands for source index `firstIndex + k`. `firstIndex` is the raw field:
      it is only meaningful while some slot exists (see `FirstIndex`). `size` is
      the size of the element added last, or `NaN` once an insert has
      invalidated it; `startUv` is the position of the first element;
      `startUnstable` says the recorded positions can no longer be trusted to
      find an anchor. A collection that was never allocated is an empty one. */
  datatype Window<E> = Window(
    elements: seq<Option<E>>,
    positions: seq<Uv>,
    firstIndex: int,
    size: Uv,
    startUv: Uv,
    startUnstable: bool)

  /** The invariant every reachable state satisfies: the two lists are
      parallel, and a non-empty window starts at a real source index. */
  predicate Valid<E>(w: Window<E>) {
    && |w.elements| == |w.positions|
    && (|w.elements| > 0 ==> w.firstIndex >= 0)
  }

  /** A freshly constructed tracker: no lists, default sizes, trusted start. */
  function Empty<E>(): (w: Window<E>)
    ensures Valid(w) && Count(w) == 0 && FirstIndex(w) == -1 && LastIndex(w) == -1
    ensures !w.startUnstable && EstimateElementSize(w) == Some(Zero)
  {
    Window([], [], 0, Zero, Zero, false)
  }

  /** The number of realized slots: in a reachable state, the length of
      either list. */
  function Count<E>(w: Window<E>): (r: nat)
    ensures Valid(w) ==> r == |w.positions|
  {
    |w.elements|
  }

  /** The source index of the first slot, or -1 if there is none. */
  function FirstIndex<E>(w: Window<E>): (r: int)
    ensures Count(w) == 0 ==> r == -1
  {
    if |w.elements| > 0 then w.firstIndex else -1
  }

  /** The source index of the last slot, or -1 if there is none. */
  function LastIndex<E>(w: Window<E>): (r: int)
    ensures Count(w) == 0 ==> r == -1
    ensures Count(w) > 0 ==> r - FirstIndex(w) + 1 == Count(w)
  {
    if |w.elements| > 0 then w.firstIndex + |w.elements| - 1 else -1
  }

  /** In a reachable state the three observers agree: an empty window has
      both indices -1, and a non-empty one spans `Count` consecutive
      non-negative source indices. */
  lemma IndexRange<E>(w: Window<E>)
    requires Valid(w)
    ensures FirstIndex(w) == -1 <==> Count(w) == 0
    ensures LastIndex(w) == -1 <==> Count(w) == 0
    ensures Count(w) > 0 ==> 0 <= FirstIndex(w) <= LastIndex(w)
  {
  }

  /** The tracked element size, unless an insert has invalidated it. */
  function EstimateElementSize<E>(w: Window<E>): (r: Option<Uv>)
    ensures r.None? <==> w.size.NaN?
    ensures r.Some? ==> r.value == w.size
  {
    if w.size.NaN? then None else Some(w.size)
  }

  /** The element realized for source index `index`, or `None` when the index
      lies outside the window or its slot is a placeholder. */
  function GetElement<E>(w: Window<E>, index: int): (r: Option<E>)
    ensures r.Some? ==> Count(w) > 0 && FirstIndex(w) <= index <= LastIndex(w)
    ensures Count(w) > 0 && FirstIndex(w) <= index <= LastIndex(w) ==>
      r == w.elements[index - FirstIndex(w)]
  {
    var i := index - FirstIndex(w);
    if 0 <= i < |w.elements| then w.elements[i] else None
  }

  /** The first slot holding `e`, or -1 (`List.IndexOf`). */
  function SlotOf<E(==)>(slots: seq<Option<E>>, e: E): (r: int)
    ensures -1 <= r < |slots|
    ensures r == -1 <==> Some(e) !in slots
    ensures r >= 0 ==> slots[r] == Some(e) && forall j :: 0 <= j < r ==> slots[j] != Some(e)
  {
    if |slots| == 0 then -1
    else if slots[0] == Some(e) then 0
    else
      var k := SlotOf(slots[1..], e);
      if k < 0 then -1 else k + 1
  }

  /** Reverse lookup: the source index of the first slot holding `e`, or -1
      when no slot holds it. */
  function GetIndex<E(==)>(w: Window<E>, e: E): (r: int)
    requires Valid(w)
    ensures r == -1 <==> Some(e) !in w.elements
    ensures r != -1 ==> GetElement(w, r) == Some(e)
    ensures forall s :: FirstIndex(w) <= s < r ==> GetElement(w, s) != Some(e)
  {
    var k := SlotOf(w.elements, e);
    if k >= 0 then k + FirstIndex(w) else -1
  }

  /** The recorded position for a realized index. As written, the code
      bounds-checks the slot `index - FirstIndex` but then reads the list at
      `index` itself, so it returns slot `index`'s position, and throws when
      that lies past the end of the list. */
  function GetElementUv<E>(w: Window<E>, index: int): (r: Result<Option<Uv>>)
    requires Valid(w)
    ensures index < FirstIndex(w) || index > LastIndex(w) ==> r == Ok(None)
    ensures r.Err? <==> Count(w) > 0 && FirstIndex(w) <= index <= LastIndex(w) && index >= Count(w)
    ensures r.Ok? && r.value.Some? ==>
      FirstIndex(w) <= index <= LastIndex(w) && 0 <= index < |w.positions| && r.value.value == w.positions[index]
    ensures FirstIndex(w) == 0 && index <= LastIndex(w) ==>
      r == Ok(if index < 0 then None else Some(w.positions[index - FirstIndex(w)]))
  {
    if index < FirstIndex(w) then Ok(None)
    else if index - FirstIndex(w) >= |w.positions| then Ok(None)
    else if 0 <= index < |w.positions| then Ok(Some(w.positions[index]))
    else Err(ArgumentOutOfRange)
  }

  /** A window starting past source index 0 makes the lookup of its own first
      element throw: the slot check passes but the list is read at the source
      index. */
  lemma GetElementUvThrowsOnShiftedWindow<E>(e: E, p: Uv)
    ensures GetElement(Window([Some(e)], [p], 5, p, p, false), 5) == Some(e)
    ensures GetElementUv(Window([Some(e)], [p], 5, p, p, false), 5) == Err(ArgumentOutOfRange)
  {
  }

  /** Grows the window by one element at either edge. Throws for a negative
      index, and for any index not adjacent to a non-empty window. The size
      just added becomes the tracked size (last write wins). */
  function Add<E>(w: Window<E>, index: int, element: E, uv: Uv, sizeUv: Uv): (r: Result<Window<E>>)
    requires Valid(w)
    ensures r.Err? <==>
      index < 0 || (Count(w) > 0 && index != LastIndex(w) + 1 && index != FirstIndex(w) - 1)
    ensures r.Err? ==> r.error == (if index < 0 then ArgumentOutOfRange else NotSupported)
    ensures r.Ok? ==>
      && Valid(r.value)
      && Count(r.value) == Count(w) + 1
      && GetElement(r.value, index) == Some(element)
      && r.value.size == sizeUv
      && r.value.startUnstable == w.startUnstable
    ensures r.Ok? && Count(w) == 0 ==>
      FirstIndex(r.value) == index == LastIndex(r.value) && r.value.startUv == uv
    ensures r.Ok? && Count(w) > 0 && index == LastIndex(w) + 1 ==>
      FirstIndex(r.value) == FirstIndex(w) && LastIndex(r.value) == index && r.value.startUv == w.startUv
    ensures r.Ok? && Count(w) > 0 && index == FirstIndex(w) - 1 ==>
      FirstIndex(r.value) == index && LastIndex(r.value) == LastIndex(w) && r.value.startUv == uv
    ensures r.Ok? ==>
      r.value.positions == (if Count(w) > 0 && index == FirstIndex(w) - 1
                            then [uv] + w.positions else w.positions + [uv])
  {
    if index < 0 then Err(ArgumentOutOfRange)
    else if Count(w) == 0 then
      Ok(w.(elements := w.elements + [Some(element)], positions := w.positions + [uv],
            size := sizeUv, startUv := uv, firstIndex := index))
    else if index == LastIndex(w) + 1 then
      Ok(w.(elements := w.elements + [Some(element)], positions := w.positions + [uv],
            size := sizeUv))
    else if index == FirstIndex(w) - 1 then
      Ok(w.(firstIndex := w.firstIndex - 1, elements := [Some(element)] + w.elements,
            positions := [uv] + w.positions, size := sizeUv, startUv := uv))
    else Err(NotSupported)
  }

  /** Adding at an edge leaves every other source index as it was. */
  lemma AddKeepsOtherIndices<E>(w: Window<E>, index: int, element: E, uv: Uv, sizeUv: Uv, s: int)
    requires Valid(w) && Add(w, index, element, uv, sizeUv).Ok?
    requires s != index
    ensures GetElement(Add(w, index, element, uv, sizeUv).value, s) == GetElement(w, s)
  {
    var w' := Add(w, index, element, uv, sizeUv).value;
    if Count(w) > 0 && index == FirstIndex(w) - 1 && FirstIndex(w) <= s <= LastIndex(w) {
      assert w'.elements[s - FirstIndex(w')] == w.elements[s - FirstIndex(w)];
    }
  }
}
